=== FILE: README.md ===
# lute-beta core, modelled in Dafny

This project models the core of lute-beta, a music-library tool. It scrapes
album metadata (rating, rating count, genres, descriptors) from
RateYourMusic, caches it per library album and refreshes it after a day.
The fetches go through a rate-limited job queue that pauses on the first
failure. From the cached history it scores a chart of albums by how well
each one matches the user's taste. The model covers:

- **The recommendation scorer** (`Recommendations`, with the stable sort in
  `Sorting`). Each chart album gets these components:
  - rank percentiles for its rating and its rating count, taken against
    the history;
  - tag percentiles for its genres and descriptors, taken against the
    history's tag-frequency tables. An unseen tag scores the novelty
    factor 0.25.
  
  The composite weights the seven components 10/5/45/30/20/15/90. The
  albums are then sorted by composite, largest first and stable, and the
  first ten are kept. A JavaScript `NaN` is `None`.
- **The scraper's text filters and chart path** (`RymText`, built on
  `JsText`). This covers `trim`, `toReleaseType`, `toNumber`,
  `dropTrailingComma`, `dropTrailingDot`, and the path of a chart page.
- **The staleness-aware cache** (`Rym`):
  - the one-day age test;
  - the fetcher (search, then read the release page);
  - `loadRymAlbumData`, which fails for an unknown album, skips fresh
    data, and otherwise fetches with the first artist and upserts.
  
  The browser is a `Site` value: what a search lists for a query, and what
  a release page yields. The database tables are maps. The clock is a
  parameter `now` in milliseconds.
- **The album-data fetch queue** (`FetchQueue`), as a state machine:
  - the producer's push, which skips any album that already has a
    stored row;
  - the limiter, which allows one start per 5000 ms;
  - the end of a job, which upserts on success and pauses on failure;
  - the `failed` handler, which pauses the queue.
  
  An event trace records the start times.
- **The descriptor co-occurrence report** (`MostCommonPairs`): the fold
  that counts, for each ordered pair of different descriptors, how often
  they occur together. It is checked against an independent count.
- **The key-value settings table** (`Kv`): `retrieveValue`,
  `retrieveValueOrThrow` and `storeValue`, over a map from key to string.

Three behaviours of the code matter for the model:

- **Staleness is strict.** Data counts as stale when it was written
  strictly more than one day ago, as `isBefore(updatedAt, now - 1 day)`
  computes. Data exactly one day old is still fresh (`Rym.StalenessIsStrict`).
- **A failed job is not retried.** The queue configures a 60 000 ms
  backoff but sets no attempt count. Bull's default is a single attempt,
  so the first failure is final and fires the `failed` handler, which
  pauses the queue. The constant is kept as `FetchQueue.BackoffMs`.
- **An album without artists is an error, not a precondition.** The code
  reads `album.artists[0].name`, which throws for an album with no
  artists. This is the error `NoArtist`.

## Model

| member | source | states |
|---|---|---|
| Recommendations.PercentileByIndex | src/programs/get-chart-recommendations.ts:19-20 | the percentile times the list size is the 1-based position; a position inside the list gives a value in (0, 1] |
| Recommendations.IndexOf | src/programs/get-chart-recommendations.ts:88 | `indexOf`: -1 exactly when the value is absent, otherwise the first position holding it |
| Recommendations.SortAsc | src/programs/get-chart-recommendations.ts:85 | the numeric sort is ascending and a permutation of its input |
| Recommendations.RankPercentile | src/programs/get-chart-recommendations.ts:87-101 | appending, sorting and taking the first index gives (number of history values strictly below + 1) / (history size + 1), always in (0, 1] |
| Recommendations.InsertedIndex | src/programs/get-chart-recommendations.ts:88 | after appending a value and sorting, its first index is the number of history values strictly below it |
| Recommendations.RankPercentileMonotone | src/programs/get-chart-recommendations.ts:87-101 | a larger rating or rating count never gets a lower percentile |
| Recommendations.RankPercentileExample | src/programs/get-chart-recommendations.ts:87-90 | a tie takes the percentile of its first occurrence: 3 among ratings 1..5 scores 3/6 |
| Recommendations.FindTag | src/programs/get-chart-recommendations.ts:108 | `findIndex`: -1 exactly when no row carries the tag, otherwise the first such row |
| Recommendations.TagPercentile | src/programs/get-chart-recommendations.ts:103-113 | an unseen tag scores 0.25; a seen tag scores (first row + 1) / table size; always in (0, 1] |
| Recommendations.TagPercentileOfRow | src/programs/get-chart-recommendations.ts:103-113 | in a table without repeated tags, each row's tag scores (its position + 1) / table size |
| Recommendations.TagPercentileFollowsCount | src/programs/get-chart-recommendations.ts:46-57 | in a count-ordered table, a tag the history carries more often scores strictly higher |
| Recommendations.Average | src/programs/get-chart-recommendations.ts:125-128 | the mean is `NaN` exactly for an empty list; otherwise, times the length, it gives back the sum |
| Recommendations.AverageWithin | src/programs/get-chart-recommendations.ts:125-128 | the mean of a non-empty list lies within any bounds of its elements |
| Recommendations.AverageInUnitRange | src/programs/get-chart-recommendations.ts:125-128 | the mean of percentiles is a percentile |
| Recommendations.AverageOfConstant | src/programs/get-chart-recommendations.ts:125-128 | the mean of copies of one value is that value |
| Recommendations.Repeat | src/programs/get-chart-recommendations.ts:133-134 | exactly `count` elements, each the item |
| Recommendations.Pick | src/programs/get-chart-recommendations.ts:130-131 | `slice(0, min(length, count))`: the first `count` items, all items when fewer, and a negative count counts back from the end |
| Recommendations.CompositeIsWeightedMean | src/programs/get-chart-recommendations.ts:206-214 | the averaged sample of repeats is the weighted mean with weights 10, 5, 45, 30, 20, 15, 90 over 215 |
| Recommendations.WeightedMean | src/programs/get-chart-recommendations.ts:206-214 | seven equal components give that component back, and seven components in [0, 1] give a value in [0, 1] |
| Recommendations.CompositeOfEqualComponents | src/programs/get-chart-recommendations.ts:206-214 | seven equal components give that value back |
| Recommendations.AverageTagPercentile | src/programs/get-chart-recommendations.ts:179-204 | a tag list's mean percentile is `NaN` exactly when the list is empty, and otherwise in (0, 1] |
| Recommendations.AverageTagPercentileIsMean | src/programs/get-chart-recommendations.ts:179-204 | a non-empty tag list's component is the sum of its tags' percentiles against the table over the number of tags |
| Recommendations.Composite | src/programs/get-chart-recommendations.ts:206-214 | the composite is `NaN` exactly when some component is; otherwise it is the weighted mean of its components, with rating 10, rating count 5, primary genres 45, secondary genres 30, primary cross 20, secondary cross 15 and descriptors 90 over 215, and lies in (0, 1] |
| Recommendations.Score | src/programs/get-chart-recommendations.ts:173-227 | an item keeps its chart album; the rating is ranked among the history's ratings and the rating count among its rating counts; primary genres are scored against the primary table and, as the cross component, against the secondary table, secondary genres the other way round, descriptors against the descriptor table; the composite is the composite of the item's own components, defined exactly when the album has primary genres, secondary genres and descriptors, and then in (0, 1] |
| Recommendations.ScoreIsWeightedMean | src/programs/get-chart-recommendations.ts:173-214 | a scored album's defined composite is the weighted mean 10/5/45/30/20/15/90 over 215 of its own seven components |
| Recommendations.ScoreAll | src/programs/get-chart-recommendations.ts:173 | the `map` over the chart: one item per chart album, in chart order, each the album scored against the history |
| Recommendations.SwappedGenreTables | src/programs/get-chart-recommendations.ts:179-198 | exchanging the primary and secondary tables exchanges the straight and cross genre components |
| Recommendations.Rank | src/programs/get-chart-recommendations.ts:229-233 | the report holds min(n, 10) items, ordered by composite from largest, drawn from the scored items; no item left out beats one kept; for every composite value, the kept items with that value are the first such scored items, in scored order |
| Recommendations.RankKeepsTies | src/programs/get-chart-recommendations.ts:229-233 | the stable sort keeps ties in scored order and the cut to ten keeps the earliest of them |
| Recommendations.GetChartRecommendations | src/programs/get-chart-recommendations.ts:173-233 | the same for the scored chart, ties included: albums with equal composite are reported in chart order, the earliest first; every reported album comes from the chart |
| Recommendations.RankingIsStable | src/programs/get-chart-recommendations.ts:229-231 | items with equal composite keep their chart order |
| Sorting.SortDesc | src/programs/get-chart-recommendations.ts:229-231 | the sort is ordered by key, largest first, and a permutation of its input |
| Sorting.InsertKeepsOrder | src/programs/get-chart-recommendations.ts:229-231 | inserting one item into a list sorted by key, largest first, leaves it sorted; each insertion step of the sort keeps this order |
| Sorting.WithKeyPrefix | src/programs/get-chart-recommendations.ts:233 | cutting a list short keeps, for every key value, a prefix of the elements carrying it |
| Sorting.SortDescStable | src/programs/get-chart-recommendations.ts:229-231 | for every key value, the items carrying it keep their relative order |
| Sorting.PrefixOfSorted | src/programs/get-chart-recommendations.ts:233 | a prefix of a sorted list is sorted, drawn from it, and beats everything left out |
| JsText.Trim | src/rym.ts:12 | `trim` leaves no white space at either end and never lengthens the text |
| JsText.TrimOfPadded | src/rym.ts:12 | `trim` removes exactly the surrounding white space, whatever it is |
| JsText.TrimIdempotent | src/rym.ts:12 | trimming twice is trimming once |
| JsText.ToLower | src/rym.ts:14 | `toLowerCase` keeps the length and leaves no ASCII upper-case letter; each character is either kept or is an ASCII capital turned into its small letter |
| JsText.JsNumber | src/rym.ts:17 | `Number` of blank text is 0 |
| JsText.JsNumberIsNaN | src/rym.ts:17 | `Number` of non-blank text is `NaN` exactly when what follows an optional leading sign is not an unsigned decimal literal |
| JsText.JsNumberOfUnsigned | src/rym.ts:17 | trimmed text with no sign is read as an unsigned decimal literal |
| JsText.JsNumberOfJunk | src/rym.ts:17 | a character other than a digit or the point, anywhere after the first, makes `Number` `NaN` |
| JsText.JsNumberOfTwoPoints | src/rym.ts:17 | two decimal points make `Number` `NaN`, signed or not |
| JsText.JsNumberOfBareSymbol | src/rym.ts:17 | a bare "-", "+" or "." is `NaN` |
| JsText.ParseUnsignedDecimal | src/rym.ts:17 | digits, a point and digits, with at least one digit, are the whole part plus the fraction |
| JsText.DigitsValueFront | src/rym.ts:17 | read from the front, the first digit is worth itself times ten to the number of digits after it |
| JsText.FractionScaled | src/rym.ts:17 | the digits after the point, multiplied by ten once per digit, are the digits read as a whole number |
| JsText.FractionTimesPow | src/rym.ts:17 | the fraction times ten to the number of its digits is those digits read as a whole number: ".85" is 85/100 |
| JsText.NatToString | src/rym.ts:113 | the page number's decimal text is non-empty digits without a leading zero, and their value is the number |
| JsText.SplitJoin | src/rym.ts:111 | splitting joined pieces on a separator none of them holds gives the pieces back |
| RymText.ToReleaseType | src/rym.ts:13-16 | the result holds no ASCII upper-case letter |
| RymText.ReleaseTypeCases | src/rym.ts:13-16 | "album" comes back exactly for "ep" in any of its four spellings or "album" in any case; anything else is only lower-cased |
| RymText.ReleaseTypeIdempotent | src/rym.ts:13-16 | the filter applied to its own output changes nothing |
| RymText.RemoveAll | src/rym.ts:17 | after the global replace no comma is left, every other character keeps its multiplicity, and text without commas is unchanged |
| RymText.RemoveAllConcat | src/rym.ts:17 | the replace works piece by piece: on a concatenation it is the concatenation of the replaced parts, so the remaining characters keep their order |
| RymText.RemoveAllOne | src/rym.ts:17 | on a single character, a comma is removed and any other character kept |
| RymText.ToNumber | src/rym.ts:17 | blank text reads as 0, and a non-zero result is the value `Number` gives for the text without commas: every `NaN` becomes 0 |
| RymText.ToNumberOfGroupedDigits | src/rym.ts:17 | digits with thousands commas read as the value of their digits |
| RymText.ToNumberOfNatToString | src/rym.ts:17 | `toNumber` reads back the decimal text of any non-negative integer |
| RymText.ToNumberOfNonNumeric | src/rym.ts:17 | text that does not start like a number reads as 0, the `|| 0` fallback for `NaN` |
| RymText.ToNumberOfDecimal | src/rym.ts:17 | digits, a point and digits, with at least one digit, read as the whole part plus the fraction |
| RymText.ToNumberOfRating | src/rym.ts:79 | a release page's rating text "3.85" reads as 3.85 |
| RymText.ToNumberOfNegative | src/rym.ts:17 | a minus in front of digits gives the negated value of the digits |
| RymText.ToNumberOfJunk | src/rym.ts:17 | with commas dropped and white space trimmed, any character other than a digit or the point after the first makes the text `NaN`, read as 0 ("12abc", "-1x") |
| RymText.ToNumberOfTwoPoints | src/rym.ts:17 | two decimal points ("1.2.3") make the text `NaN`, read as 0 |
| RymText.ToNumberOfBareSymbol | src/rym.ts:17 | a bare "-", "+" or "." reads as 0 |
| RymText.DropTrailingComma | src/rym.ts:18 | the result is trimmed and never longer than the input; what is removed is stated by DropTrailingAtMatch and DropTrailingWithoutMatch |
| RymText.DropTrailingDot | src/rym.ts:19 | the same for a trailing dot |
| RymText.DropTrailingAtMatch | src/rym.ts:18-19 | a trailing comma or dot followed only by white space is removed, and the rest is trimmed |
| RymText.DropTrailingWithoutMatch | src/rym.ts:18-19 | with no such trailing comma or dot the filter is plain `trim` |
| RymText.ChartPath | src/rym.ts:110-113 | the path is "charts/top/album/" followed by the year, and ends in "/"; its segments are stated by ChartPathParts |
| RymText.ChartPathParts | src/rym.ts:110-113 | the chart path splits on "/" into "charts", "top", "album", the year, the "g:" filter, the page and an empty tail |
| RymText.ChartPathWithoutExclusions | src/rym.ts:110-113 | with nothing excluded the filter segment is a bare "/g:" |
| RymText.ExcludedGenresRecoverable | src/rym.ts:111 | the "-genre" entries can be read back from the filter when no genre holds a comma |
| RymText.EmptyExclusionStillFilters | src/rym.ts:110-112 | as written, an empty exclusion list still puts an empty "g:" segment in the path |
| RymText.ChartPathIntended | src/rym.ts:110-112 | with some genre excluded the corrected path is the written one |
| RymText.ChartPathIntendedWithoutExclusions | src/rym.ts:110-112 | without exclusions the corrected path has no filter segment: root, year, page |
| Rym.StalenessIsStrict | src/rym.ts:138-139 | data is stale exactly when written more than a day before now; data exactly a day old is fresh |
| Rym.IsOlderThan1Day | src/rym.ts:138-139 | no ensures of its own; Rym.StalenessIsStrict states that data is stale exactly when written more than 86 400 000 ms before now |
| Rym.Search | src/rym.ts:53-57 | no listed result is the error "No results found"; otherwise the first result |
| Rym.FetchAlbumData | src/rym.ts:70-91 | the search query is "artist album"; the first hit's release page gives the data, or "Couldn't find album data" |
| Rym.Upsert | src/rym.ts:168-172 | the album's row becomes the new data, inserted or replaced, and every other row is unchanged |
| Rym.UpsertLastWriteWins | src/rym.ts:168-172 | two writes for one album leave only the second |
| Rym.UpsertIdempotent | src/rym.ts:168-172 | writing a row twice is writing it once |
| Rym.LoadRymAlbumData | src/rym.ts:141-174 | an unknown album fails and changes nothing; fresh data is skipped; for a known album with stale or missing data and at least one artist, the fetch with the first artist decides: its error is returned with the store unchanged, or its data is upserted at `now`, leaving other rows alone, and reported saved |
| Rym.LoadIsQuietForADay | src/rym.ts:153-160 | after a load that saved data, every load within the next day is a no-op |
| Rym.LoadLeavesFreshRow | src/rym.ts:141-174 | after any successful load the album has a row that is fresh at `now` |
| FetchQueue.Push | src/rym/album-data-fetch-queue.ts:44-57 | an album with a stored row is skipped; any other album joins the end of the queue; the store is only read |
| FetchQueue.PushIgnoresAge | src/rym/album-data-fetch-queue.ts:47-54 | the push skips an album even when its stored row is stale |
| FetchQueue.PushTwiceQueuesTwice | src/rym/album-data-fetch-queue.ts:44-57 | two pushes before the data is stored queue the album twice: the queue itself does not deduplicate |
| FetchQueue.OnFailed | src/rym/album-data-fetch-queue.ts:29-39 | the `failed` handler pauses the queue and changes nothing else |
| FetchQueue.PauseIdempotent | src/rym/album-data-fetch-queue.ts:29-39 | pausing a paused queue changes nothing |
| FetchQueue.Start | src/rym/album-data-fetch-queue.ts:16-19 | a job starts exactly when the queue is running, the worker is idle, a job is pending and 5000 ms have passed since the last start; the oldest job starts, the limiter records `now`, and nothing else changes |
| FetchQueue.Finish | src/programs/process-album-data-fetch.ts:16-27 | a fetched result is upserted for the job's album and the worker goes idle, nothing else changing; a failure records the job, pauses the queue and leaves everything else alone |
| FetchQueue.RunRemembersLastStart | src/rym/album-data-fetch-queue.ts:16-19 | after any run the limiter remembers the run's latest start |
| FetchQueue.StartsAreSpaced | src/rym/album-data-fetch-queue.ts:16-19 | over any sequence of events, consecutive starts are at least 5000 ms apart, counting from the start before the run |
| FetchQueue.SpacedSpan | src/rym/album-data-fetch-queue.ts:16-19 | the k-th start of a run comes at least k × 5000 ms after its first |
| FetchQueue.PausedStaysIdle | src/rym/album-data-fetch-queue.ts:29-39 | a paused queue starts nothing and stays paused, whatever happens |
| FetchQueue.FailureStopsTheQueue | src/rym/album-data-fetch-queue.ts:29-39 | once a job fails, no further job ever starts |
| FetchQueue.ThreeJobsOneFailure | src/rym/album-data-fetch-queue.ts:16-57 | three new albums, the first fetched and the second failing: the first has data, the second is recorded as failed, the third waits, and the queue is paused |
| MostCommonPairs.InnerGet | src/reports/most-common-pairs.ts:28-33 | the inner loop adds, for every other descriptor, its number of occurrences to the row |
| MostCommonPairs.OuterGet | src/reports/most-common-pairs.ts:24-34 | the outer loop adds the product of the two descriptors' multiplicities to every entry of two different descriptors |
| MostCommonPairs.AddRecordEffect | src/reports/most-common-pairs.ts:24-34 | folding in one record adds its descriptors as rows and adds, to each pair of different descriptors, the product of their multiplicities in it |
| MostCommonPairs.AddRecord | src/reports/most-common-pairs.ts:23-35 | one step of the reduce keeps every row and adds one for each descriptor of the record; its counts are stated by AddRecordEffect |
| MostCommonPairs.Fold | src/reports/most-common-pairs.ts:23-36 | the table has a row for exactly the descriptors that occur in some record; its counts are stated by FoldCounts |
| MostCommonPairs.FoldCounts | src/reports/most-common-pairs.ts:23-36 | the table equals the independent pair count, has a row for exactly the descriptors that occur, pairs nothing with itself, and stores no zero |
| MostCommonPairs.EveryDescriptorHasARow | src/reports/most-common-pairs.ts:24-27 | a descriptor has a row, possibly empty, exactly when some record holds it |
| MostCommonPairs.NoSelfPair | src/reports/most-common-pairs.ts:28-29 | no row holds its own descriptor |
| MostCommonPairs.CountsArePositive | src/reports/most-common-pairs.ts:30-31 | every stored count is at least 1 |
| MostCommonPairs.Symmetric | src/reports/most-common-pairs.ts:28-32 | `table[a][b]` equals `table[b][a]`, and one entry exists exactly when the other does |
| MostCommonPairs.EntryExistsIffShared | src/reports/most-common-pairs.ts:23-36 | an entry exists exactly for two different descriptors that share a record |
| MostCommonPairs.DistinctRecordsCountRecords | src/reports/most-common-pairs.ts:23-36 | when no record repeats a descriptor, an entry is the number of records holding both descriptors |
| MostCommonPairs.OneMoreRecord | src/reports/most-common-pairs.ts:23-36 | one more record changes only entries whose descriptors both occur in it, and adds rows only for its own descriptors |
| Kv.KeyNamesDistinct | src/kv.ts:3-7 | the key names tell the keys apart |
| Kv.KeyName | src/kv.ts:3-7 | no ensures of its own; the names are the enum's string values, and Kv.KeyNamesDistinct states that they tell the keys apart |
| Kv.RetrieveValue | src/kv.ts:11-22 | a value is found exactly when the key holds a non-empty string, and it is that string parsed |
| Kv.RetrieveValueOrThrow | src/kv.ts:24-31 | the read fails, naming the key, exactly when the value is absent or falsy; otherwise it returns what `retrieveValue` returns |
| Kv.StoreValue | src/kv.ts:37-48 | the key holds the new value; every other key keeps its value |
| Kv.StoreThenRetrieve | src/kv.ts:37-48 | a stored non-empty value reads back, parsed |
| Kv.EmptyReadsAsAbsent | src/kv.ts:19 | a stored empty string reads back as no value, and the throwing read fails on it |
| Kv.StoreLeavesOthers | src/kv.ts:43-47 | storing under one key changes no read of another |
| Kv.StoreOverwrites | src/kv.ts:43-47 | the last store wins, and storing a value twice is storing it once |
| Kv.OrThrowWithDefaultParser | src/kv.ts:24-31 | with the default parser the throwing read fails exactly when the plain read finds nothing, and otherwise returns the stored string |

## Left out

- The browser, page navigation and the x-ray selector extraction (`getPageHtml`, `launchBrowser`, the selectors of `fetchAlbumData` and `fetchAlbumChart`) are not modelled. A search page and a release page are the two functions of `Rym.Site`.
- `getRymUrl` is not modelled: the host prefix and `URLSearchParams` encoding. The chart path is modelled up to the point where the host is added.
- `fetchAlbumChart` is not modelled beyond its path: its "Couldn't find albums" error comes from the extractor. `getChart` (ten pages, two-second waits) is not modelled either, and the chart is a parameter of the scorer.
- The five database queries of the scorer are not modelled. Their sorted results are the fields of `Recommendations.History`. The SQL grouping is not modelled, and the tables are taken as given.
- File output is not modelled: `saveToFile`, the JSON rendering of the report and of the pairs table.
- Logging is not modelled.
- JavaScript numbers are exact `real`s: floating-point rounding is not modelled. `NaN` is `None`.
- `JsText.JsNumber`: handles decimal literals only (an optional sign, digits, an optional fraction). Exponents, hexadecimal, `Infinity` and underscores read as `NaN` and so as 0 after `toNumber`, whereas `Number` would accept some of them.
- `JsText.ToLower`: lower-cases ASCII letters only, not the full Unicode mapping of `toLowerCase`.
- `Recommendations.Rank`: requires every composite to be defined. A JavaScript sort whose comparator returns `NaN` has an implementation-defined order, so a chart album without primary genres, secondary genres or descriptors is outside the model.
- `Recommendations.GetChartRecommendations`: requires every chart album to carry primary genres, secondary genres and descriptors, for the same reason.
- Calendar arithmetic is not modelled: `subDays` is calendar-aware, and the model uses a fixed 86 400 000 ms day.
- The database's write timestamp is assumed to be `now` at the upsert; the persistence schema is not part of this model.
- Bull's Redis persistence, job identities and retries are not modelled. A failed job is recorded once and the queue pauses, which is what a single attempt does.
- Resuming the queue is not modelled: it is an operator action from the dashboard, and nothing in the modelled code calls it.
- Concurrent producers are not modelled. The dedup race shows up as the sequential `FetchQueue.PushTwiceQueuesTwice`.
- The worker's browser launch and close (src/programs/process-album-data-fetch.ts) are not modelled. The result of its fetch is the `outcome` of `FetchQueue.Finish`.
- The worker does not check staleness before fetching; `FetchQueue.Finish` upserts unconditionally, as the worker does.
- `MostCommonPairs.Fold`: models the table as a plain map. In JavaScript the table is an object with a prototype: a descriptor named like an `Object.prototype` member (such as "constructor") reads as an existing row and corrupts its counts. The database query that selects the "Art Pop" records is not modelled: the records are the input.
- `Kv.StoreValue`: takes the already stringified value. `toString` of the caller's value is outside the model.
- The Spotify client and authorisation flow, the sync and load programs, the queue dashboard and the descriptors-by-genre report are not part of this model.

## Findings

| source | as written | input that shows it | evidently intended | confidence | as-written member | corrected member |
|---|---|---|---|---|---|---|
| src/rym.ts:110-112 | `excludeGenres ? ... : ""` tests an array, and every array is truthy, so the `""` branch is dead | `excludeGenres = []` gives the path `charts/top/album/<year>/g:/<page>/`, with an empty genre filter | no filter segment when no genre is excluded, as the `""` branch suggests | medium, not executed | RymText.EmptyExclusionStillFilters | RymText.ChartPathIntended, RymText.ChartPathIntendedWithoutExclusions |

=== FILE: fetch_queue.dfy ===
/** The album-data fetch queue as a state machine: the producer's
    deduplicating push, the rate-limited start of the next job, the end of
    a job (an upsert on success, a pause on failure), and the `failed`
    handler that pauses the whole queue.

    One worker runs one job at a time. The limiter admits at most one start
    per 5000 ms. Nothing in the modelled code resumes a paused queue, so
    here a pause is final.
 */
module FetchQueue {
  import opened Results
  import Rym

  /** The limiter: at most `LimiterMax` starts per `LimiterDurationMs`.
      With one start per window, the model keeps only the last start time
      (`lastStart`), so `LimiterMax` documents the setting and is read by
      nothing. */
  const LimiterMax: nat := 1
  const LimiterDurationMs: int := 5 * 1000

  /** The configured retry delay of a failed job (its retry is not
      modelled: the first failure pauses the queue). */
  const BackoffMs: int := 60 * 1000

  datatype QueueState = QueueState(
    store: Rym.Store,               // album id -> stored album data
    pending: seq<Rym.Album>,        // waiting jobs, oldest first
    active: Option<Rym.Album>,      // the job the worker is running
    paused: bool,
    lastStart: Option<int>,         // when the limiter last admitted a job
    failed: seq<Rym.Album>)         // jobs that ended in failure

  /** A fresh queue in front of an existing store. */
  function Fresh(store: Rym.Store): QueueState {
    QueueState(store, [], None, false, None, [])
  }

  /** `pushToAlbumDataFetchQueue`: an album that already has a stored row,
      however old, is skipped; any other album joins the end of the queue.
      The store is only read. */
  function Push(q: QueueState, album: Rym.Album): (r: QueueState)
    ensures r.store == q.store && r.paused == q.paused && r.active == q.active
    ensures album.id in q.store ==> r == q
    ensures album.id !in q.store ==> r.pending == q.pending + [album] && r == q.(pending := r.pending)
  {
    if album.id in q.store then q else q.(pending := q.pending + [album])
  }

  /** The dedup looks only at whether a row exists: a stale row blocks the
      push as much as a fresh one. */
  lemma PushIgnoresAge(q: QueueState, album: Rym.Album, data: Rym.AlbumData, updatedAt: int)
    ensures var q' := q.(store := q.store[album.id := Rym.StoredData(data, updatedAt)]);
            Push(q', album) == q'
  {
  }

  /** The queue itself does not deduplicate: pushing an album twice before
      its data is stored queues it twice. */
  lemma PushTwiceQueuesTwice(q: QueueState, album: Rym.Album)
    requires album.id !in q.store
    ensures Push(Push(q, album), album).pending == q.pending + [album, album]
  {
  }

  /** The `failed` handler: pause, whatever the state. */
  function OnFailed(q: QueueState): (r: QueueState)
    ensures r.paused
    ensures r.(paused := q.paused) == q
  {
    q.(paused := true)
  }

  /** Pausing a paused queue changes nothing. */
  lemma PauseIdempotent(q: QueueState)
    ensures OnFailed(OnFailed(q)) == OnFailed(q)
  {
  }

  /** Whether the limiter admits a start at `now`. */
  predicate LimiterAllows(lastStart: Option<int>, now: int) {
    lastStart.None? || now - lastStart.value >= LimiterDurationMs
  }

  /** The worker takes the oldest pending job, if the queue is running, the
      worker is idle and the limiter allows it. */
  function Start(q: QueueState, now: int): (r: Option<QueueState>)
    ensures r.Some? <==> !q.paused && q.active.None? && |q.pending| > 0 && LimiterAllows(q.lastStart, now)
    ensures r.Some? ==> r.value == q.(pending := q.pending[1..], active := Some(q.pending[0]),
                                      lastStart := Some(now))
  {
    if q.paused || q.active.Some? || |q.pending| == 0 || !LimiterAllows(q.lastStart, now) then None
    else Some(q.(pending := q.pending[1..], active := Some(q.pending[0]), lastStart := Some(now)))
  }

  /** The end of the active job: fetched data is upserted; a failure records
      the job as failed and fires the `failed` handler. */
  function Finish(q: QueueState, outcome: Result<Rym.AlbumData, Rym.RymError>, now: int): (r: QueueState)
    ensures r.active.None? && r.pending == q.pending && r.lastStart == q.lastStart
    ensures q.active.Some? && outcome.Success? ==>
              r == q.(store := Rym.Upsert(q.store, q.active.value.id, outcome.value, now), active := None)
    ensures q.active.Some? && outcome.Failure? ==>
              r == q.(active := None, paused := true, failed := q.failed + [q.active.value])
    ensures q.active.None? ==> r == q
  {
    match q.active
    case None => q
    case Some(job) =>
      match outcome
      case Success(data) => q.(store := Rym.Upsert(q.store, job.id, data, now), active := None)
      case Failure(_) => OnFailed(q.(active := None, failed := q.failed + [job]))
  }

  datatype Event =
    | PushEvent(album: Rym.Album)
    | StartEvent(at: int)
    | FinishEvent(outcome: Result<Rym.AlbumData, Rym.RymError>, at: int)

  /** One event; a start the queue refuses leaves it as it is. */
  function Step(q: QueueState, e: Event): QueueState {
    match e
    case PushEvent(album) => Push(q, album)
    case StartEvent(at) => Start(q, at).GetOr(q)
    case FinishEvent(outcome, at) => Finish(q, outcome, at)
  }

  /** The times at which jobs started while the events ran. */
  function StartTimes(q: QueueState, events: seq<Event>): seq<int>
    decreases |events|
  {
    if |events| == 0 then []
    else
      var started := if events[0].StartEvent? && Start(q, events[0].at).Some? then [events[0].at] else [];
      started + StartTimes(Step(q, events[0]), events[1..])
  }

  function Run(q: QueueState, events: seq<Event>): QueueState
    decreases |events|
  {
    if |events| == 0 then q else Run(Step(q, events[0]), events[1..])
  }

  /** Starts spaced by the limiter, counting from the last start before
      them. */
  ghost predicate Spaced(lastStart: Option<int>, starts: seq<int>) {
    && (lastStart.Some? && |starts| > 0 ==> starts[0] - lastStart.value >= LimiterDurationMs)
    && (forall k | 0 < k < |starts| :: starts[k] - starts[k - 1] >= LimiterDurationMs)
  }

  /** A run's start times: the event's own start, if any, then the rest. */
  lemma StartTimesStep(q: QueueState, events: seq<Event>)
    requires |events| > 0
    ensures var rest := StartTimes(Step(q, events[0]), events[1..]);
            if events[0].StartEvent? && Start(q, events[0].at).Some?
            then StartTimes(q, events) == [events[0].at] + rest
                 && Step(q, events[0]).lastStart == Some(events[0].at)
            else StartTimes(q, events) == rest
                 && Step(q, events[0]).lastStart == q.lastStart
  {
  }

  /** The queue remembers the latest start of a run. */
  lemma {:induction false} RunRemembersLastStart(q: QueueState, events: seq<Event>)
    ensures var starts := StartTimes(q, events);
            Run(q, events).lastStart == if |starts| == 0 then q.lastStart else Some(starts[|starts| - 1])
    decreases |events|
  {
    if |events| > 0 {
      StartTimesStep(q, events);
      RunRemembersLastStart(Step(q, events[0]), events[1..]);
    }
  }

  /** No two starts are less than the limiter's window apart. */
  lemma {:induction false} StartsAreSpaced(q: QueueState, events: seq<Event>)
    ensures Spaced(q.lastStart, StartTimes(q, events))
    decreases |events|
  {
    if |events| > 0 {
      var q1 := Step(q, events[0]);
      StartsAreSpaced(q1, events[1..]);
      StartTimesStep(q, events);
      var rest := StartTimes(q1, events[1..]);
      if events[0].StartEvent? && Start(q, events[0].at).Some? {
        var starts := [events[0].at] + rest;
        forall k | 0 < k < |starts|
          ensures starts[k] - starts[k - 1] >= LimiterDurationMs
        {
          if k > 1 {
            assert starts[k] == rest[k - 1] && starts[k - 1] == rest[k - 2];
          }
        }
      }
    }
  }

  /** The `k`-th start comes at least `k` windows after the first: draining
      `n` jobs takes at least `(n - 1) * 5000` ms. */
  lemma {:induction false} SpacedSpan(lastStart: Option<int>, starts: seq<int>, k: nat)
    requires Spaced(lastStart, starts)
    requires k < |starts|
    ensures starts[k] - starts[0] >= k * LimiterDurationMs
  {
    if k > 0 {
      SpacedSpan(lastStart, starts, k - 1);
    }
  }

  /** A paused queue starts nothing and stays paused, whatever happens. */
  lemma {:induction false} PausedStaysIdle(q: QueueState, events: seq<Event>)
    requires q.paused
    ensures StartTimes(q, events) == []
    ensures Run(q, events).paused
    decreases |events|
  {
    if |events| > 0 {
      PausedStaysIdle(Step(q, events[0]), events[1..]);
    }
  }

  /** Circuit breaker: once a job fails, no further job ever starts. */
  lemma FailureStopsTheQueue(q: QueueState, e: Rym.RymError, at: int, events: seq<Event>)
    requires q.active.Some?
    ensures StartTimes(Finish(q, Failure(e), at), events) == []
  {
    PausedStaysIdle(Finish(q, Failure(e), at), events);
  }

  /** Three new albums, a success on the first and a failure on the second:
      the first has data, the second is failed, the third never started,
      and the queue is paused. */
  lemma ThreeJobsOneFailure(store: Rym.Store, a1: Rym.Album, a2: Rym.Album, a3: Rym.Album,
                            data: Rym.AlbumData, e: Rym.RymError, t: int)
    requires a1.id !in store && a2.id !in store && a3.id !in store
    requires a1.id != a2.id && a1.id != a3.id && a2.id != a3.id
    ensures var events := [PushEvent(a1), PushEvent(a2), PushEvent(a3),
                           StartEvent(t), FinishEvent(Success(data), t + 1),
                           StartEvent(t + LimiterDurationMs), FinishEvent(Failure(e), t + LimiterDurationMs + 1),
                           StartEvent(t + 2 * LimiterDurationMs)];
            var r := Run(Fresh(store), events);
            && r.paused
            && a1.id in r.store && a2.id !in r.store && a3.id !in r.store
            && r.failed == [a2] && r.pending == [a3]
  {
    var pushes := [PushEvent(a1), PushEvent(a2), PushEvent(a3)];
    var first := [StartEvent(t), FinishEvent(Success(data), t + 1)];
    var second := [StartEvent(t + LimiterDurationMs), FinishEvent(Failure(e), t + LimiterDurationMs + 1),
                   StartEvent(t + 2 * LimiterDurationMs)];
    var events := [PushEvent(a1), PushEvent(a2), PushEvent(a3),
                   StartEvent(t), FinishEvent(Success(data), t + 1),
                   StartEvent(t + LimiterDurationMs), FinishEvent(Failure(e), t + LimiterDurationMs + 1),
                   StartEvent(t + 2 * LimiterDurationMs)];
    assert events == pushes + (first + second);
    RunAppend(Fresh(store), pushes, first + second);
    RunAppend(Run(Fresh(store), pushes), first, second);
    ThreePushes(store, a1, a2, a3);
    FirstJobSucceeds(QueueState(store, [a1, a2, a3], None, false, None, []), data, t);
    SecondJobFails(Run(QueueState(store, [a1, a2, a3], None, false, None, []), first), e, t);
  }

  lemma ThreePushes(store: Rym.Store, a1: Rym.Album, a2: Rym.Album, a3: Rym.Album)
    requires a1.id !in store && a2.id !in store && a3.id !in store
    ensures Run(Fresh(store), [PushEvent(a1), PushEvent(a2), PushEvent(a3)])
         == QueueState(store, [a1, a2, a3], None, false, None, [])
  {
    var pushes := [PushEvent(a1), PushEvent(a2), PushEvent(a3)];
    var q1 := Push(Fresh(store), a1);
    var q2 := Push(q1, a2);
    assert Run(Fresh(store), pushes) == Run(q1, pushes[1..]);
    assert Run(q1, pushes[1..]) == Run(q2, pushes[2..]);
    assert Run(q2, pushes[2..]) == Push(q2, a3);
  }

  lemma FirstJobSucceeds(q: QueueState, data: Rym.AlbumData, t: int)
    requires |q.pending| == 3 && q.active.None? && !q.paused && q.lastStart.None? && q.failed == []
    ensures var r := Run(q, [StartEvent(t), FinishEvent(Success(data), t + 1)]);
            && r.pending == q.pending[1..] && r.active.None? && !r.paused && r.lastStart == Some(t)
            && r.store == Rym.Upsert(q.store, q.pending[0].id, data, t + 1) && r.failed == []
  {
    var events := [StartEvent(t), FinishEvent(Success(data), t + 1)];
    var q1 := Start(q, t).value;
    assert Run(q, events) == Run(q1, events[1..]);
    assert Run(q1, events[1..]) == Finish(q1, Success(data), t + 1);
  }

  lemma SecondJobFails(q: QueueState, e: Rym.RymError, t: int)
    requires |q.pending| == 2 && q.active.None? && !q.paused && q.lastStart == Some(t) && q.failed == []
    ensures var r := Run(q, [StartEvent(t + LimiterDurationMs), FinishEvent(Failure(e), t + LimiterDurationMs + 1),
                             StartEvent(t + 2 * LimiterDurationMs)]);
            && r.paused && r.store == q.store && r.failed == [q.pending[0]] && r.pending == [q.pending[1]]
  {
    var events := [StartEvent(t + LimiterDurationMs), FinishEvent(Failure(e), t + LimiterDurationMs + 1),
                   StartEvent(t + 2 * LimiterDurationMs)];
    var q1 := Start(q, t + LimiterDurationMs).value;
    var q2 := Finish(q1, Failure(e), t + LimiterDurationMs + 1);
    assert Run(q, events) == Run(q1, events[1..]);
    assert Run(q1, events[1..]) == Run(q2, events[2..]);
    assert Run(q2, events[2..]) == q2;
  }

  /** Running two stretches of events one after the other is running them
      together. */
  lemma {:induction false} RunAppend(q: QueueState, first: seq<Event>, rest: seq<Event>)
    ensures Run(q, first + rest) == Run(Run(q, first), rest)
    decreases |first|
  {
    if |first| > 0 {
      assert (first + rest)[0] == first[0];
      assert (first + rest)[1..] == first[1..] + rest;
      RunAppend(Step(q, first[0]), first[1..], rest);
    } else {
      assert first + rest == rest;
    }
  }
}

=== FILE: kv.dfy ===
/** The key-value settings table: one string per key, read through a
    parser, with an empty string read as no value at all.
 */
module Kv {
  import opened Results

  /** The keys the table may hold (`KVStoreKey`). */
  datatype Key = SpotifyAccessToken | SpotifyRefreshToken | SpotifyAccessTokenExpiration

  /** The key's name in the table. */
  function KeyName(k: Key): string {
    match k
    case SpotifyAccessToken => "spotifyAccessToken"
    case SpotifyRefreshToken => "spotifyRefreshToken"
    case SpotifyAccessTokenExpiration => "spotifyAccessTokenExpiration"
  }

  /** Key names tell keys apart. */
  lemma KeyNamesDistinct(k1: Key, k2: Key)
    ensures KeyName(k1) == KeyName(k2) <==> k1 == k2
  {
  }

  /** The table: at most one value per key. */
  type KvStore = map<Key, string>

  /** The default parser: the stored string itself. */
  function Identity(value: string): string {
    value
  }

  /** JavaScript truthiness of a string: only the empty string is falsy. */
  predicate NonEmpty(value: string) {
    |value| > 0
  }

  /** `retrieveValue`: nothing for a missing key or an empty value,
      otherwise the parsed value. */
  function RetrieveValue<T>(kv: KvStore, k: Key, parse: string -> T): (r: Option<T>)
    ensures r.Some? <==> k in kv && NonEmpty(kv[k])
    ensures r.Some? ==> r.value == parse(kv[k])
  {
    if k !in kv || kv[k] == "" then None else Some(parse(kv[k]))
  }

  /** `retrieveValueOrThrow`: the retrieved value, or an error naming the
      key when it is absent or falsy; `truthy` is JavaScript truthiness on
      the parser's results. */
  function RetrieveValueOrThrow<T>(kv: KvStore, k: Key, parse: string -> T, truthy: T -> bool): (r: Result<T, string>)
    ensures r.Failure? <==> RetrieveValue(kv, k, parse).None? || !truthy(RetrieveValue(kv, k, parse).value)
    ensures r.Failure? ==> r.error == "No value found for key " + KeyName(k)
    ensures r.Success? ==> Some(r.value) == RetrieveValue(kv, k, parse)
  {
    match RetrieveValue(kv, k, parse)
    case None => Failure("No value found for key " + KeyName(k))
    case Some(value) =>
      if !truthy(value) then Failure("No value found for key " + KeyName(k)) else Success(value)
  }

  /** `storeValue`: insert or overwrite the key's value. */
  function StoreValue(kv: KvStore, k: Key, value: string): (r: KvStore)
    ensures r.Keys == kv.Keys + {k}
    ensures r[k] == value
    ensures forall other | other in kv && other != k :: r[other] == kv[other]
  {
    kv[k := value]
  }

  /** A stored non-empty value reads back, parsed. */
  lemma StoreThenRetrieve<T>(kv: KvStore, k: Key, value: string, parse: string -> T)
    requires NonEmpty(value)
    ensures RetrieveValue(StoreValue(kv, k, value), k, parse) == Some(parse(value))
    ensures RetrieveValue(StoreValue(kv, k, value), k, Identity) == Some(value)
  {
  }

  /** A stored empty string reads back as no value. */
  lemma EmptyReadsAsAbsent<T>(kv: KvStore, k: Key, parse: string -> T)
    ensures RetrieveValue(StoreValue(kv, k, ""), k, parse) == None
    ensures RetrieveValueOrThrow(StoreValue(kv, k, ""), k, Identity, NonEmpty).Failure?
  {
  }

  /** Storing under one key changes no read of any other key. */
  lemma StoreLeavesOthers<T>(kv: KvStore, k: Key, value: string, other: Key, parse: string -> T)
    requires other != k
    ensures RetrieveValue(StoreValue(kv, k, value), other, parse) == RetrieveValue(kv, other, parse)
  {
  }

  /** The last store wins, and storing a value twice is storing it once. */
  lemma StoreOverwrites(kv: KvStore, k: Key, first: string, second: string)
    ensures StoreValue(StoreValue(kv, k, first), k, second) == StoreValue(kv, k, second)
    ensures StoreValue(StoreValue(kv, k, second), k, second) == StoreValue(kv, k, second)
  {
  }

  /** With the default parser, the throwing read fails exactly when the
      plain read finds nothing, and otherwise returns the same value. */
  lemma OrThrowWithDefaultParser(kv: KvStore, k: Key)
    ensures RetrieveValueOrThrow(kv, k, Identity, NonEmpty).Failure? <==> RetrieveValue(kv, k, Identity).None?
    ensures RetrieveValueOrThrow(kv, k, Identity, NonEmpty).Success? ==>
              RetrieveValueOrThrow(kv, k, Identity, NonEmpty).value == kv[k]
  {
  }
}

=== FILE: most_common_pairs.dfy ===
/** The descriptor co-occurrence report: a fold over album-data records
    (already narrowed to one primary genre) that counts, for every ordered
    pair of different descriptors, how often they occur together.

    The JavaScript object of objects is a map of maps; an absent entry reads
    as 0, as `table[a][b] || 0` does.
 */
module MostCommonPairs {

  /** descriptor -> other descriptor -> count */
  type Table = map<string, map<string, nat>>

  /** `table[a][b]`, with an absent row or entry read as 0. */
  function Get(t: Table, a: string, b: string): nat {
    if a in t && b in t[a] then t[a][b] else 0
  }

  /** How often `x` occurs in `s`. */
  function Count(s: seq<string>, x: string): (r: nat)
    ensures r > 0 <==> x in s
    ensures r <= |s|
  {
    if |s| == 0 then 0 else (if s[0] == x then 1 else 0) + Count(s[1..], x)
  }

  /** The distinct descriptors of one record. */
  function Elements(s: seq<string>): set<string> {
    set d | d in s
  }

  /** The descriptors of all records. */
  ghost function Descriptors(records: seq<seq<string>>): set<string> {
    set i, d | 0 <= i < |records| && d in records[i] :: d
  }

  /** What the fold keeps true: no row holds its own descriptor, and every
      stored count is at least 1. */
  ghost predicate WellFormed(t: Table) {
    forall a, b | a in t && b in t[a] :: a != b && t[a][b] >= 1
  }

  /** `table[d][o] = (table[d][o] || 0) + 1` on an existing row. */
  function Bump(t: Table, d: string, o: string): (r: Table)
    requires d in t
    ensures r.Keys == t.Keys
  {
    var row: map<string, nat> := t[d][o := Get(t, d, o) + 1];
    t[d := row]
  }

  /** The inner loop for one descriptor `d`: count each other descriptor of
      the record. */
  function Inner(t: Table, d: string, others: seq<string>): (r: Table)
    requires d in t
    ensures r.Keys == t.Keys
    decreases |others|
  {
    if |others| == 0 then t
    else Inner(if d != others[0] then Bump(t, d, others[0]) else t, d, others[1..])
  }

  /** `if (!table[d]) table[d] = {}` */
  function EnsureRow(t: Table, d: string): (r: Table)
    ensures r.Keys == t.Keys + {d}
    ensures forall a, b :: Get(r, a, b) == Get(t, a, b)
  {
    if d in t then t else t[d := map[]]
  }

  /** The outer loop over the descriptors `ds` still to visit, each paired
      with every descriptor of the record `all`. */
  function Outer(t: Table, ds: seq<string>, all: seq<string>): Table
    decreases |ds|
  {
    if |ds| == 0 then t
    else
      var row := EnsureRow(t, ds[0]);
      Outer(Inner(row, ds[0], all), ds[1..], all)
  }

  /** One step of the reduce: fold a record's descriptors into the table. */
  function AddRecord(t: Table, descriptors: seq<string>): (r: Table)
    ensures r.Keys == t.Keys + Elements(descriptors)
  {
    OuterKeys(t, descriptors, descriptors);
    Outer(t, descriptors, descriptors)
  }

  /** The reduce over all records, starting from `{}`; the last record is
      folded last. */
  function Fold(records: seq<seq<string>>): (r: Table)
    ensures r.Keys == Descriptors(records)
    decreases |records|
  {
    if |records| == 0 then map[]
    else
      DescriptorsOfPrefix(records);
      AddRecord(Fold(records[..|records| - 1]), records[|records| - 1])
  }

  /** The independent count: each record adds the product of the two
      descriptors' multiplicities in it. */
  function PairCount(records: seq<seq<string>>, a: string, b: string): nat
    decreases |records|
  {
    if |records| == 0 then 0
    else
      var last := records[|records| - 1];
      PairCount(records[..|records| - 1], a, b) + Count(last, a) * Count(last, b)
  }

  /** How many records contain both `a` and `b`. */
  function RecordsWithBoth(records: seq<seq<string>>, a: string, b: string): nat
    decreases |records|
  {
    if |records| == 0 then 0
    else
      var last := records[|records| - 1];
      RecordsWithBoth(records[..|records| - 1], a, b) + (if a in last && b in last then 1 else 0)
  }

  lemma {:induction false} InnerGet(t: Table, d: string, others: seq<string>, a: string, b: string)
    requires d in t
    ensures Get(Inner(t, d, others), a, b)
         == Get(t, a, b) + (if a == d && b != d then Count(others, b) else 0)
    decreases |others|
  {
    if |others| > 0 {
      var t1 := if d != others[0] then Bump(t, d, others[0]) else t;
      InnerGet(t1, d, others[1..], a, b);
    }
  }

  lemma {:induction false} InnerWellFormed(t: Table, d: string, others: seq<string>)
    requires d in t && WellFormed(t)
    ensures WellFormed(Inner(t, d, others))
    decreases |others|
  {
    if |others| > 0 {
      var t1 := if d != others[0] then Bump(t, d, others[0]) else t;
      InnerWellFormed(t1, d, others[1..]);
    }
  }

  lemma {:induction false} OuterGet(t: Table, ds: seq<string>, all: seq<string>, a: string, b: string)
    ensures Get(Outer(t, ds, all), a, b)
         == Get(t, a, b) + (if a != b then Count(ds, a) * Count(all, b) else 0)
    decreases |ds|
  {
    if |ds| > 0 {
      var d := ds[0];
      var row := EnsureRow(t, d);
      var t1 := Inner(row, d, all);
      InnerGet(row, d, all, a, b);
      OuterGet(t1, ds[1..], all, a, b);
      OuterStepCount(ds, a, b, Count(all, b));
    }
  }

  /** The outer loop's first descriptor contributes `c` to the entry of two
      different descriptors exactly when it is the entry's row. */
  lemma OuterStepCount(ds: seq<string>, a: string, b: string, c: nat)
    requires |ds| > 0
    ensures (if a != b then Count(ds, a) * c else 0)
         == (if a == ds[0] && b != ds[0] then c else 0) + (if a != b then Count(ds[1..], a) * c else 0)
  {
    if a != b {
      var first := if ds[0] == a then 1 else 0;
      assert Count(ds, a) == first + Count(ds[1..], a);
      MulDistributes(first, Count(ds[1..], a), c);
    }
  }

  lemma MulDistributes(x: nat, y: nat, c: nat)
    ensures (x + y) * c == x * c + y * c
  {
  }

  lemma {:induction false} OuterKeys(t: Table, ds: seq<string>, all: seq<string>)
    ensures Outer(t, ds, all).Keys == t.Keys + Elements(ds)
    decreases |ds|
  {
    if |ds| > 0 {
      var row := EnsureRow(t, ds[0]);
      OuterKeys(Inner(row, ds[0], all), ds[1..], all);
      assert Elements(ds) == {ds[0]} + Elements(ds[1..]);
    }
  }

  lemma {:induction false} OuterWellFormed(t: Table, ds: seq<string>, all: seq<string>)
    requires WellFormed(t)
    ensures WellFormed(Outer(t, ds, all))
    decreases |ds|
  {
    if |ds| > 0 {
      var row := EnsureRow(t, ds[0]);
      InnerWellFormed(row, ds[0], all);
      OuterWellFormed(Inner(row, ds[0], all), ds[1..], all);
    }
  }

  /** Folding in one record: every entry grows by the product of the two
      descriptors' multiplicities in the record, no entry pairs a descriptor
      with itself, and the record's descriptors all get a row. */
  lemma AddRecordEffect(t: Table, r: seq<string>)
    requires WellFormed(t)
    ensures WellFormed(AddRecord(t, r))
    ensures AddRecord(t, r).Keys == t.Keys + Elements(r)
    ensures forall a, b :: Get(AddRecord(t, r), a, b)
                        == Get(t, a, b) + (if a != b then Count(r, a) * Count(r, b) else 0)
  {
    OuterWellFormed(t, r, r);
    OuterKeys(t, r, r);
    forall a, b
      ensures Get(AddRecord(t, r), a, b) == Get(t, a, b) + (if a != b then Count(r, a) * Count(r, b) else 0)
    {
      OuterGet(t, r, r, a, b);
    }
  }

  lemma DescriptorsOfPrefix(records: seq<seq<string>>)
    requires |records| > 0
    ensures Descriptors(records)
         == Descriptors(records[..|records| - 1]) + Elements(records[|records| - 1])
  {
    var n := |records| - 1;
    forall d | d in Descriptors(records)
      ensures d in Descriptors(records[..n]) + Elements(records[n])
    {
      var i :| 0 <= i < |records| && d in records[i];
      if i < n {
        assert records[..n][i] == records[i];
      }
    }
    forall d | d in Descriptors(records[..n])
      ensures d in Descriptors(records)
    {
      var i :| 0 <= i < n && d in records[..n][i];
      assert records[..n][i] == records[i];
    }
  }

  /** The fold's table agrees with the independent count everywhere, has a
      row for exactly the descriptors that occur, and stays well formed. */
  lemma {:induction false} FoldCounts(records: seq<seq<string>>)
    ensures WellFormed(Fold(records))
    ensures Fold(records).Keys == Descriptors(records)
    ensures forall a, b :: Get(Fold(records), a, b) == if a == b then 0 else PairCount(records, a, b)
    decreases |records|
  {
    if |records| > 0 {
      var n := |records| - 1;
      FoldCounts(records[..n]);
      AddRecordEffect(Fold(records[..n]), records[n]);
      DescriptorsOfPrefix(records);
    }
  }

  /** Every descriptor that occurs in some record has a row, possibly an
      empty one, and no other string does. */
  lemma EveryDescriptorHasARow(records: seq<seq<string>>, d: string)
    ensures d in Fold(records) <==> exists i | 0 <= i < |records| :: d in records[i]
  {
    FoldCounts(records);
  }

  /** No descriptor is ever paired with itself. */
  lemma NoSelfPair(records: seq<seq<string>>, d: string)
    ensures d in Fold(records) ==> d !in Fold(records)[d]
    ensures Get(Fold(records), d, d) == 0
  {
    FoldCounts(records);
  }

  /** Every stored count is at least 1. */
  lemma CountsArePositive(records: seq<seq<string>>, a: string, b: string)
    requires a in Fold(records) && b in Fold(records)[a]
    ensures Fold(records)[a][b] >= 1
  {
    FoldCounts(records);
  }

  lemma {:induction false} PairCountSymmetric(records: seq<seq<string>>, a: string, b: string)
    ensures PairCount(records, a, b) == PairCount(records, b, a)
    decreases |records|
  {
    if |records| > 0 {
      PairCountSymmetric(records[..|records| - 1], a, b);
    }
  }

  /** The table is symmetric, in its counts and in which entries exist. */
  lemma Symmetric(records: seq<seq<string>>, a: string, b: string)
    ensures Get(Fold(records), a, b) == Get(Fold(records), b, a)
    ensures (a in Fold(records) && b in Fold(records)[a]) <==> (b in Fold(records) && a in Fold(records)[b])
  {
    FoldCounts(records);
    PairCountSymmetric(records, a, b);
  }

  lemma {:induction false} PairCountPositive(records: seq<seq<string>>, a: string, b: string)
    ensures PairCount(records, a, b) > 0 <==> exists i | 0 <= i < |records| :: a in records[i] && b in records[i]
    decreases |records|
  {
    if |records| > 0 {
      var n := |records| - 1;
      PairCountPositive(records[..n], a, b);
      if exists i | 0 <= i < n :: a in records[..n][i] && b in records[..n][i] {
        var i :| 0 <= i < n && a in records[..n][i] && b in records[..n][i];
        assert records[..n][i] == records[i];
      }
      if exists i | 0 <= i < |records| :: a in records[i] && b in records[i] {
        var i :| 0 <= i < |records| && a in records[i] && b in records[i];
        if i < n {
          assert records[..n][i] == records[i];
        }
      }
    }
  }

  /** An entry exists exactly for two different descriptors that share a
      record. */
  lemma EntryExistsIffShared(records: seq<seq<string>>, a: string, b: string)
    ensures (a in Fold(records) && b in Fold(records)[a])
        <==> a != b && exists i | 0 <= i < |records| :: a in records[i] && b in records[i]
  {
    FoldCounts(records);
    PairCountPositive(records, a, b);
  }

  /** No descriptor occurs twice in the record. */
  predicate NoRepeats(s: seq<string>) {
    forall i, j | 0 <= i < j < |s| :: s[i] != s[j]
  }

  lemma {:induction false} CountWithoutDuplicates(s: seq<string>, x: string)
    requires NoRepeats(s)
    ensures Count(s, x) == if x in s then 1 else 0
  {
    if |s| > 0 {
      CountWithoutDuplicates(s[1..], x);
    }
  }

  lemma {:induction false} PairCountWithoutRepeats(records: seq<seq<string>>, a: string, b: string)
    requires forall k | 0 <= k < |records| :: NoRepeats(records[k])
    ensures PairCount(records, a, b) == RecordsWithBoth(records, a, b)
    decreases |records|
  {
    if |records| > 0 {
      var n := |records| - 1;
      var last := records[n];
      assert forall k | 0 <= k < n :: records[..n][k] == records[k];
      PairCountWithoutRepeats(records[..n], a, b);
      CountWithoutDuplicates(last, a);
      CountWithoutDuplicates(last, b);
      assert Count(last, a) * Count(last, b) == if a in last && b in last then 1 else 0;
    }
  }

  /** When no record repeats a descriptor, an entry is the number of records
      that hold both descriptors. */
  lemma DistinctRecordsCountRecords(records: seq<seq<string>>, a: string, b: string)
    requires forall k | 0 <= k < |records| :: NoRepeats(records[k])
    requires a != b
    ensures Get(Fold(records), a, b) == RecordsWithBoth(records, a, b)
  {
    FoldCounts(records);
    PairCountWithoutRepeats(records, a, b);
  }

  /** One more record touches only entries whose descriptors both occur in
      it, and adds only rows for its own descriptors. */
  lemma OneMoreRecord(records: seq<seq<string>>, r: seq<string>, a: string, b: string)
    requires !(a in r && b in r)
    ensures Get(Fold(records + [r]), a, b) == Get(Fold(records), a, b)
    ensures Fold(records + [r]).Keys == Fold(records).Keys + Elements(r)
  {
    var all := records + [r];
    assert all[..|all| - 1] == records && all[|all| - 1] == r;
    assert Fold(all) == AddRecord(Fold(records), r);
    FoldCounts(records);
    AddRecordEffect(Fold(records), r);
    assert Count(r, a) == 0 || Count(r, b) == 0;
    assert Count(r, a) * Count(r, b) == 0;
  }
}

=== FILE: recommendations.dfy ===
/** The chart recommendation scorer: every charted album gets rank
    percentiles for its rating and rating count against the user's history,
    tag percentiles for its genres and descriptors against the history's
    tag-frequency tables, and a weighted composite of all seven; the albums
    are then ranked by the composite and the first ten are kept.

    The history (five tables the database returns already sorted) and the
    chart are parameters. A JavaScript number that may be `NaN` is an
    `Option<real>`, `None` standing for `NaN`.
 */
module Recommendations {
  import opened Results
  import Sorting

  /** Percentile given to a genre or descriptor the history never saw. */
  const NoveltyFactor: real := 0.25

  /** How many albums the report keeps. */
  const ReportSize: nat := 10

  /** One row of a tag-frequency table: a genre or descriptor and how many
      albums of the history carry it. */
  datatype TagCount = TagCount(tag: string, count: nat)

  /** An album as a chart page lists it. */
  datatype ChartAlbum = ChartAlbum(
    name: string,
    artistNames: seq<string>,
    rank: real,
    rating: real,
    ratingCount: real,
    primaryGenres: seq<string>,
    secondaryGenres: seq<string>,
    descriptors: seq<string>)

  /** The user's history as the five database queries return it: ratings and
      rating counts in ascending order, tag tables in ascending order of
      count. */
  datatype History = History(
    ratings: seq<real>,
    ratingCounts: seq<real>,
    primaryGenres: seq<TagCount>,
    secondaryGenres: seq<TagCount>,
    descriptors: seq<TagCount>)

  datatype RecommendationItem = RecommendationItem(
    chartAlbum: ChartAlbum,
    ratingPercentile: real,
    ratingCountPercentile: real,
    averagePrimaryGenrePercentile: Option<real>,
    averageSecondaryGenrePercentile: Option<real>,
    averagePrimaryCrossGenrePercentile: Option<real>,
    averageSecondaryCrossGenrePercentile: Option<real>,
    averageDescriptorPercentile: Option<real>,
    averagePercentile: Option<real>)

  /** A percentile strictly above 0 and at most 1. */
  predicate InUnitRange(p: real) {
    0.0 < p <= 1.0
  }

  predicate InUnitRangeOrNaN(p: Option<real>) {
    p.None? || InUnitRange(p.value)
  }

  /** `getPercentileByIndex`: the share of a list of `listSize` items that
      lies at or before position `index`. */
  function PercentileByIndex(index: int, listSize: int): (r: real)
    requires listSize != 0
    ensures r * listSize as real == (index + 1) as real
    ensures 0 <= index < listSize ==> InUnitRange(r)
  {
    (index + 1) as real / listSize as real
  }

  /** JavaScript's `indexOf`: the first position of `x`, or -1. */
  function IndexOf<T(==)>(s: seq<T>, x: T): (r: int)
    ensures -1 <= r < |s|
    ensures r == -1 <==> x !in s
    ensures r >= 0 ==> s[r] == x && x !in s[..r]
  {
    if |s| == 0 then -1
    else if s[0] == x then 0
    else
      var k := IndexOf(s[1..], x);
      if k == -1 then -1
      else
        assert s[..k + 1] == [s[0]] + s[1..][..k];
        k + 1
  }

  function Negate(x: real): real {
    -x
  }

  /** `sort((a, b) => a - b)` on numbers. */
  function SortAsc(xs: seq<real>): (r: seq<real>)
    ensures multiset(r) == multiset(xs)
    ensures forall i, j | 0 <= i < j < |r| :: r[i] <= r[j]
  {
    var r := Sorting.SortDesc(xs, Negate);
    assert forall i, j | 0 <= i < j < |r| :: Negate(r[i]) >= Negate(r[j]);
    r
  }

  function Below(v: real): real -> bool {
    x => x < v
  }

  /** How many values of `xs` are strictly smaller than `v`. */
  function CountBelow(xs: seq<real>, v: real): nat {
    Sorting.CountWhere(xs, Below(v))
  }

  lemma {:induction false} CountBelowSplit(xs: seq<real>, v: real)
    requires |xs| > 0
    ensures CountBelow(xs, v) == (if xs[0] < v then 1 else 0) + CountBelow(xs[1..], v)
  {
  }

  lemma {:induction false} CountBelowAppend(xs: seq<real>, y: real, v: real)
    ensures CountBelow(xs + [y], v) == CountBelow(xs, v) + (if y < v then 1 else 0)
    decreases |xs|
  {
    if |xs| == 0 {
      assert xs + [y] == [y];
      CountBelowSplit([y], v);
    } else {
      assert (xs + [y])[1..] == xs[1..] + [y];
      CountBelowSplit(xs + [y], v);
      CountBelowSplit(xs, v);
      CountBelowAppend(xs[1..], y, v);
    }
  }

  /** In an ascending list that holds `v`, the first `v` sits after exactly
      the values below it. */
  lemma {:induction false} IndexOfSortedIsCountBelow(s: seq<real>, v: real)
    requires forall i, j | 0 <= i < j < |s| :: s[i] <= s[j]
    requires v in s
    ensures IndexOf(s, v) == CountBelow(s, v)
    decreases |s|
  {
    CountBelowSplit(s, v);
    if s[0] == v {
      CountBelowNone(s[1..], v);
    } else {
      assert s[0] < v by {
        var k :| 0 <= k < |s| && s[k] == v;
      }
      assert v in s[1..] by {
        var k :| 0 <= k < |s| && s[k] == v;
        assert s[1..][k - 1] == v;
      }
      IndexOfSortedIsCountBelow(s[1..], v);
    }
  }

  lemma {:induction false} CountBelowNone(s: seq<real>, v: real)
    requires forall i | 0 <= i < |s| :: s[i] >= v
    ensures CountBelow(s, v) == 0
    decreases |s|
  {
    if |s| > 0 {
      CountBelowSplit(s, v);
      CountBelowNone(s[1..], v);
    }
  }

  /** `getRatingPercentile` and `getRatingCountPercentile`, whose bodies are
      the same: append the candidate to the history, sort ascending, take
      the candidate's first position and divide by the new length. */
  function RankPercentile(value: real, history: seq<real>): (r: real)
    ensures r == (CountBelow(history, value) + 1) as real / (|history| + 1) as real
    ensures InUnitRange(r)
  {
    InsertedIndex(value, history);
    PercentileOfPosition(CountBelow(history, value), |history| + 1);
    PercentileByIndex(IndexOf(SortAsc(history + [value]), value), |history| + 1)
  }

  /** A position inside the list gives its share of the list, in (0, 1]. */
  lemma PercentileOfPosition(index: nat, listSize: nat)
    requires index < listSize
    ensures PercentileByIndex(index, listSize) == (index + 1) as real / listSize as real
    ensures InUnitRange(PercentileByIndex(index, listSize))
  {
  }

  /** After appending `value` and sorting, its first position is the number
      of history values below it. */
  lemma InsertedIndex(value: real, history: seq<real>)
    ensures IndexOf(SortAsc(history + [value]), value) == CountBelow(history, value)
    ensures CountBelow(history, value) <= |history|
  {
    CountBelowAtMost(history, value);
    var sorted := SortAsc(history + [value]);
    assert value in multiset(history + [value]);
    assert value in sorted;
    Sorting.SortDescCount(history + [value], Negate, Below(value));
    IndexOfSortedIsCountBelow(sorted, value);
    CountBelowAppend(history, value, value);
  }

  lemma {:induction false} CountBelowAtMost(xs: seq<real>, v: real)
    ensures CountBelow(xs, v) <= |xs|
    decreases |xs|
  {
    if |xs| > 0 {
      CountBelowSplit(xs, v);
      CountBelowAtMost(xs[1..], v);
    }
  }

  lemma {:induction false} CountBelowMonotone(xs: seq<real>, v: real, w: real)
    requires v <= w
    ensures CountBelow(xs, v) <= CountBelow(xs, w)
    decreases |xs|
  {
    if |xs| > 0 {
      CountBelowSplit(xs, v);
      CountBelowSplit(xs, w);
      CountBelowMonotone(xs[1..], v, w);
    }
  }

  /** A better rating (or more ratings) never lowers the percentile. */
  lemma RankPercentileMonotone(history: seq<real>, v: real, w: real)
    requires v <= w
    ensures RankPercentile(v, history) <= RankPercentile(w, history)
  {
    CountBelowMonotone(history, v, w);
    var n := (|history| + 1) as real;
    var a := (CountBelow(history, v) + 1) as real;
    var b := (CountBelow(history, w) + 1) as real;
    if a < b {
      DivideMonotone(a, b, n);
    }
  }

  /** Ratings 1 to 5 and a candidate rated 3: the sorted list is
      [1, 2, 3, 3, 4, 5], the first 3 sits at index 2, so 3/6. */
  lemma RankPercentileExample()
    ensures RankPercentile(3.0, [1.0, 2.0, 3.0, 4.0, 5.0]) == 0.5
  {
    var h := [1.0, 2.0, 3.0, 4.0, 5.0];
    CountBelowSplit(h, 3.0);
    CountBelowSplit(h[1..], 3.0);
    CountBelowSplit(h[2..], 3.0);
    CountBelowNone(h[3..], 3.0);
    assert h[2..][1..] == h[3..];
    assert h[1..][1..] == h[2..];
  }

  /** `findIndex` on the tag column: the first row carrying `value`, or -1. */
  function FindTag(table: seq<TagCount>, value: string): (r: int)
    ensures -1 <= r < |table|
    ensures r == -1 <==> forall i | 0 <= i < |table| :: table[i].tag != value
    ensures r >= 0 ==> table[r].tag == value && forall i | 0 <= i < r :: table[i].tag != value
  {
    if |table| == 0 then -1
    else if table[0].tag == value then 0
    else
      var k := FindTag(table[1..], value);
      if k == -1 then -1 else k + 1
  }

  /** `getTagPercentile` (and its instances `getGenrePercentile` and
      `getDescriptorPercentile`): an unseen tag scores the novelty factor;
      a seen tag scores its first row's position over the table size. */
  function TagPercentile(value: string, table: seq<TagCount>): (r: real)
    ensures (forall i | 0 <= i < |table| :: table[i].tag != value) ==> r == NoveltyFactor
    ensures forall i | 0 <= i < |table| && table[i].tag == value
                       && (forall j | 0 <= j < i :: table[j].tag != value)
              :: r == (i + 1) as real / |table| as real
    ensures InUnitRange(r)
  {
    var index := FindTag(table, value);
    if index == -1 then NoveltyFactor
    else PercentileByIndex(index, |table|)
  }

  ghost predicate DistinctTags(table: seq<TagCount>) {
    forall i, j | 0 <= i < j < |table| :: table[i].tag != table[j].tag
  }

  ghost predicate AscendingByCount(table: seq<TagCount>) {
    forall i, j | 0 <= i < j < |table| :: table[i].count <= table[j].count
  }

  /** With distinct tags, a row's tag scores its own position. */
  lemma TagPercentileOfRow(table: seq<TagCount>, i: nat)
    requires DistinctTags(table) && i < |table|
    ensures TagPercentile(table[i].tag, table) == (i + 1) as real / |table| as real
  {
    var k := FindTag(table, table[i].tag);
    assert k == i;
  }

  /** In a table ordered by ascending count, a tag the history carries more
      often scores strictly higher. */
  lemma TagPercentileFollowsCount(table: seq<TagCount>, i: nat, j: nat)
    requires DistinctTags(table) && AscendingByCount(table)
    requires i < |table| && j < |table|
    requires table[i].count < table[j].count
    ensures TagPercentile(table[i].tag, table) < TagPercentile(table[j].tag, table)
  {
    assert i < j;
    TagPercentileOfRow(table, i);
    TagPercentileOfRow(table, j);
    DivideMonotone((i + 1) as real, (j + 1) as real, |table| as real);
  }

  lemma DivideMonotone(a: real, b: real, n: real)
    requires a < b && n > 0.0
    ensures a / n < b / n
  {
  }

  function Sum(xs: seq<real>): real {
    if |xs| == 0 then 0.0 else xs[0] + Sum(xs[1..])
  }

  lemma {:induction false} SumConcat(a: seq<real>, b: seq<real>)
    ensures Sum(a + b) == Sum(a) + Sum(b)
    decreases |a|
  {
    if |a| == 0 {
      assert a + b == b;
    } else {
      assert (a + b)[1..] == a[1..] + b;
      SumConcat(a[1..], b);
    }
  }

  lemma {:induction false} SumBounds(xs: seq<real>, lo: real, hi: real)
    requires forall i | 0 <= i < |xs| :: lo <= xs[i] <= hi
    ensures |xs| as real * lo <= Sum(xs) <= |xs| as real * hi
    decreases |xs|
  {
    if |xs| > 0 {
      SumBounds(xs[1..], lo, hi);
      assert |xs| as real * lo == lo + (|xs| - 1) as real * lo;
      assert |xs| as real * hi == hi + (|xs| - 1) as real * hi;
    }
  }

  /** `getAverage`: the sum over the length, `NaN` for an empty list. */
  function Average(xs: seq<real>): (r: Option<real>)
    ensures r.Some? <==> |xs| > 0
    ensures r.Some? ==> r.value * |xs| as real == Sum(xs)
  {
    if |xs| == 0 then None else Some(Sum(xs) / |xs| as real)
  }

  /** The average of a non-empty list lies between any bounds of its values. */
  lemma AverageWithin(xs: seq<real>, lo: real, hi: real)
    requires |xs| > 0
    requires forall i | 0 <= i < |xs| :: lo <= xs[i] <= hi
    ensures lo <= Average(xs).value <= hi
  {
    SumBounds(xs, lo, hi);
    var n := |xs| as real;
    assert Sum(xs) / n - lo == (Sum(xs) - n * lo) / n;
    assert hi - Sum(xs) / n == (n * hi - Sum(xs)) / n;
  }

  function Smallest(xs: seq<real>): (m: real)
    requires |xs| > 0
    ensures m in xs
    ensures forall i | 0 <= i < |xs| :: m <= xs[i]
  {
    if |xs| == 1 then xs[0]
    else
      var m := Smallest(xs[1..]);
      if xs[0] <= m then xs[0] else m
  }

  /** Averaging percentiles gives a percentile. */
  lemma AverageInUnitRange(xs: seq<real>)
    requires |xs| > 0
    requires forall i | 0 <= i < |xs| :: InUnitRange(xs[i])
    ensures InUnitRange(Average(xs).value)
  {
    AverageWithin(xs, Smallest(xs), 1.0);
  }

  /** The average of a constant list is that constant. */
  lemma AverageOfConstant(xs: seq<real>, c: real)
    requires |xs| > 0
    requires forall i | 0 <= i < |xs| :: xs[i] == c
    ensures Average(xs) == Some(c)
  {
    AverageWithin(xs, c, c);
  }

  /** `repeat`: `count` copies of `item`. */
  function Repeat<T>(item: T, count: nat): (r: seq<T>)
    ensures |r| == count
    ensures forall i | 0 <= i < |r| :: r[i] == item
  {
    if count == 0 then [] else [item] + Repeat(item, count - 1)
  }

  lemma {:induction false} SumRepeat(x: real, n: nat)
    ensures Sum(Repeat(x, n)) == n as real * x
    decreases n
  {
    if n > 0 {
      assert Repeat(x, n)[1..] == Repeat(x, n - 1);
      SumRepeat(x, n - 1);
    }
  }

  /** `pick`: `items.slice(0, Math.min(items.length, count))`. A negative
      end counts back from the end of the list, as `slice` does. */
  function Pick<T>(items: seq<T>, count: int): (r: seq<T>)
    ensures count >= 0 ==> r == items[..if count < |items| then count else |items|]
    ensures count < 0 ==> r == items[..if |items| + count > 0 then |items| + count else 0]
  {
    var end := if count < |items| then count else |items|;
    if end >= 0 then items[..end]
    else if |items| + end > 0 then items[..|items| + end]
    else []
  }

  /** The weighted mean the composite stands for: weights 10, 5, 45, 30, 20,
      15 and 90 over 215 weight units. */
  function WeightedMean(rating: real, ratingCount: real, primary: real, secondary: real,
                        primaryCross: real, secondaryCross: real, descriptor: real): (r: real)
    ensures rating == ratingCount == primary == secondary == primaryCross == secondaryCross == descriptor
            ==> r == rating
    ensures 0.0 <= rating <= 1.0 && 0.0 <= ratingCount <= 1.0 && 0.0 <= primary <= 1.0
            && 0.0 <= secondary <= 1.0 && 0.0 <= primaryCross <= 1.0
            && 0.0 <= secondaryCross <= 1.0 && 0.0 <= descriptor <= 1.0
            ==> 0.0 <= r <= 1.0
  {
    (10.0 * rating + 5.0 * ratingCount + 45.0 * primary + 30.0 * secondary
     + 20.0 * primaryCross + 15.0 * secondaryCross + 90.0 * descriptor) / 215.0
  }

  /** The averaged sample of the composite: each component repeated as
      often as its weight. */
  function WeightedSample(rating: real, ratingCount: real, primary: real, secondary: real,
                          primaryCross: real, secondaryCross: real, descriptor: real): seq<real>
  {
    Repeat(rating, 10) + Repeat(ratingCount, 5) + Repeat(primary, 45)
    + Repeat(secondary, 30) + Repeat(primaryCross, 20) + Repeat(secondaryCross, 15)
    + Repeat(descriptor, 90)
  }

  /** The sample has 215 elements, and its sum weighs each component by its
      number of copies. */
  lemma WeightedSampleSum(rating: real, ratingCount: real, primary: real, secondary: real,
                          primaryCross: real, secondaryCross: real, descriptor: real)
    ensures var sample := WeightedSample(rating, ratingCount, primary, secondary,
                                         primaryCross, secondaryCross, descriptor);
            && |sample| == 215
            && Sum(sample) == 10.0 * rating + 5.0 * ratingCount + 45.0 * primary + 30.0 * secondary
                              + 20.0 * primaryCross + 15.0 * secondaryCross + 90.0 * descriptor
  {
    var s1 := Repeat(rating, 10) + Repeat(ratingCount, 5);
    SumAppendRepeat(Repeat(rating, 10), ratingCount, 5);
    SumRepeat(rating, 10);
    var s2 := s1 + Repeat(primary, 45);
    SumAppendRepeat(s1, primary, 45);
    var s3 := s2 + Repeat(secondary, 30);
    SumAppendRepeat(s2, secondary, 30);
    var s4 := s3 + Repeat(primaryCross, 20);
    SumAppendRepeat(s3, primaryCross, 20);
    var s5 := s4 + Repeat(secondaryCross, 15);
    SumAppendRepeat(s4, secondaryCross, 15);
    var sample := s5 + Repeat(descriptor, 90);
    SumAppendRepeat(s5, descriptor, 90);
    assert WeightedSample(rating, ratingCount, primary, secondary, primaryCross, secondaryCross, descriptor)
        == sample;
  }

  lemma SumAppendRepeat(xs: seq<real>, x: real, n: nat)
    ensures |xs + Repeat(x, n)| == |xs| + n
    ensures Sum(xs + Repeat(x, n)) == Sum(xs) + n as real * x
  {
    SumConcat(xs, Repeat(x, n));
    SumRepeat(x, n);
  }

  /** The composite is the weighted mean with weights 10, 5, 45, 30, 20, 15
      and 90 over 215 weight units. */
  lemma CompositeIsWeightedMean(rating: real, ratingCount: real, primary: real, secondary: real,
                                primaryCross: real, secondaryCross: real, descriptor: real)
    ensures Average(WeightedSample(rating, ratingCount, primary, secondary,
                                   primaryCross, secondaryCross, descriptor))
         == Some(WeightedMean(rating, ratingCount, primary, secondary, primaryCross, secondaryCross, descriptor))
  {
    WeightedSampleSum(rating, ratingCount, primary, secondary, primaryCross, secondaryCross, descriptor);
  }

  /** When all seven components agree, the composite is their common value,
      whatever the weights. */
  lemma CompositeOfEqualComponents(v: real)
    ensures Average(WeightedSample(v, v, v, v, v, v, v)) == Some(v)
  {
    CompositeIsWeightedMean(v, v, v, v, v, v, v);
  }

  /** The percentiles of a list of tags against one table. */
  function TagPercentiles(tags: seq<string>, table: seq<TagCount>): (r: seq<real>)
    ensures |r| == |tags|
    ensures forall i | 0 <= i < |r| :: r[i] == TagPercentile(tags[i], table)
  {
    seq(|tags|, i requires 0 <= i < |tags| => TagPercentile(tags[i], table))
  }

  /** The mean percentile of a tag list: `NaN` when the list is empty. */
  function AverageTagPercentile(tags: seq<string>, table: seq<TagCount>): (r: Option<real>)
    ensures r.Some? <==> |tags| > 0
    ensures InUnitRangeOrNaN(r)
  {
    var ps := TagPercentiles(tags, table);
    if |ps| > 0 then
      AverageInUnitRange(ps);
      Average(ps)
    else
      Average(ps)
  }

  /** A non-empty tag list's component is the mean of its tags'
      percentiles: their sum over the number of tags. */
  lemma AverageTagPercentileIsMean(tags: seq<string>, table: seq<TagCount>)
    requires |tags| > 0
    ensures AverageTagPercentile(tags, table) == Some(Sum(TagPercentiles(tags, table)) / |tags| as real)
  {
  }

  /** The composite, `NaN` as soon as one component is `NaN`. */
  function Composite(rating: real, ratingCount: real, primary: Option<real>, secondary: Option<real>,
                     primaryCross: Option<real>, secondaryCross: Option<real>,
                     descriptor: Option<real>): (r: Option<real>)
    requires InUnitRange(rating) && InUnitRange(ratingCount)
    requires InUnitRangeOrNaN(primary) && InUnitRangeOrNaN(secondary) && InUnitRangeOrNaN(primaryCross)
    requires InUnitRangeOrNaN(secondaryCross) && InUnitRangeOrNaN(descriptor)
    ensures r.Some? <==> primary.Some? && secondary.Some? && primaryCross.Some? && secondaryCross.Some? && descriptor.Some?
    ensures InUnitRangeOrNaN(r)
    ensures r.Some? ==> r.value == WeightedMean(rating, ratingCount, primary.value, secondary.value,
                                                primaryCross.value, secondaryCross.value, descriptor.value)
  {
    if primary.Some? && secondary.Some? && primaryCross.Some? && secondaryCross.Some? && descriptor.Some? then
      CompositeIsWeightedMean(rating, ratingCount, primary.value, secondary.value,
                              primaryCross.value, secondaryCross.value, descriptor.value);
      SampleInUnitRange(rating, ratingCount, primary.value, secondary.value,
                        primaryCross.value, secondaryCross.value, descriptor.value);
      Average(WeightedSample(rating, ratingCount, primary.value, secondary.value,
                             primaryCross.value, secondaryCross.value, descriptor.value))
    else
      None
  }

  lemma SampleInUnitRange(rating: real, ratingCount: real, primary: real, secondary: real,
                          primaryCross: real, secondaryCross: real, descriptor: real)
    requires InUnitRange(rating) && InUnitRange(ratingCount) && InUnitRange(primary)
    requires InUnitRange(secondary) && InUnitRange(primaryCross) && InUnitRange(secondaryCross)
    requires InUnitRange(descriptor)
    ensures |WeightedSample(rating, ratingCount, primary, secondary, primaryCross, secondaryCross, descriptor)| > 0
    ensures InUnitRange(Average(WeightedSample(rating, ratingCount, primary, secondary,
                                               primaryCross, secondaryCross, descriptor)).value)
  {
    CompositeIsWeightedMean(rating, ratingCount, primary, secondary, primaryCross, secondaryCross, descriptor);
  }

  /** The scoring of one chart album (the `map` callback). Primary genres
      are scored against the primary table and, as the "cross" component,
      against the secondary table; secondary genres the other way round.
      The composite is the weighted mean of the item's own components. */
  function Score(album: ChartAlbum, history: History): (r: RecommendationItem)
    ensures r.chartAlbum == album
    ensures r.ratingPercentile == RankPercentile(album.rating, history.ratings)
    ensures r.ratingCountPercentile == RankPercentile(album.ratingCount, history.ratingCounts)
    ensures r.averagePrimaryGenrePercentile == AverageTagPercentile(album.primaryGenres, history.primaryGenres)
    ensures r.averageSecondaryGenrePercentile == AverageTagPercentile(album.secondaryGenres, history.secondaryGenres)
    ensures r.averagePrimaryCrossGenrePercentile
         == AverageTagPercentile(album.primaryGenres, history.secondaryGenres)
    ensures r.averageSecondaryCrossGenrePercentile
         == AverageTagPercentile(album.secondaryGenres, history.primaryGenres)
    ensures r.averageDescriptorPercentile == AverageTagPercentile(album.descriptors, history.descriptors)
    ensures r.averagePercentile
         == Composite(r.ratingPercentile, r.ratingCountPercentile,
                      r.averagePrimaryGenrePercentile, r.averageSecondaryGenrePercentile,
                      r.averagePrimaryCrossGenrePercentile, r.averageSecondaryCrossGenrePercentile,
                      r.averageDescriptorPercentile)
    ensures InUnitRange(r.ratingPercentile) && InUnitRange(r.ratingCountPercentile)
    ensures r.averagePercentile.Some?
        <==> |album.primaryGenres| > 0 && |album.secondaryGenres| > 0 && |album.descriptors| > 0
    ensures InUnitRangeOrNaN(r.averagePercentile)
  {
    var rating := RankPercentile(album.rating, history.ratings);
    var ratingCount := RankPercentile(album.ratingCount, history.ratingCounts);
    var primary := AverageTagPercentile(album.primaryGenres, history.primaryGenres);
    var secondary := AverageTagPercentile(album.secondaryGenres, history.secondaryGenres);
    var primaryCross := AverageTagPercentile(album.primaryGenres, history.secondaryGenres);
    var secondaryCross := AverageTagPercentile(album.secondaryGenres, history.primaryGenres);
    var descriptor := AverageTagPercentile(album.descriptors, history.descriptors);
    var composite := Composite(rating, ratingCount, primary, secondary, primaryCross, secondaryCross, descriptor);
    RecommendationItem(album, rating, ratingCount, primary, secondary, primaryCross, secondaryCross,
                       descriptor, composite)
  }

  /** A scored album's composite is the weighted mean of its own seven
      components: rating 10, rating count 5, primary genres 45, secondary
      genres 30, primary cross 20, secondary cross 15, descriptors 90. */
  lemma ScoreIsWeightedMean(album: ChartAlbum, history: History)
    ensures var r := Score(album, history);
            r.averagePercentile.Some? ==>
              && r.averagePrimaryGenrePercentile.Some? && r.averageSecondaryGenrePercentile.Some?
              && r.averagePrimaryCrossGenrePercentile.Some? && r.averageSecondaryCrossGenrePercentile.Some?
              && r.averageDescriptorPercentile.Some?
              && r.averagePercentile.value
                 == WeightedMean(r.ratingPercentile, r.ratingCountPercentile,
                                 r.averagePrimaryGenrePercentile.value, r.averageSecondaryGenrePercentile.value,
                                 r.averagePrimaryCrossGenrePercentile.value,
                                 r.averageSecondaryCrossGenrePercentile.value,
                                 r.averageDescriptorPercentile.value)
  {
    ItemIsWeightedMean(Score(album, history));
  }

  /** Any item whose composite is computed from its own components. */
  lemma ItemIsWeightedMean(r: RecommendationItem)
    requires InUnitRange(r.ratingPercentile) && InUnitRange(r.ratingCountPercentile)
    requires InUnitRangeOrNaN(r.averagePrimaryGenrePercentile)
    requires InUnitRangeOrNaN(r.averageSecondaryGenrePercentile)
    requires InUnitRangeOrNaN(r.averagePrimaryCrossGenrePercentile)
    requires InUnitRangeOrNaN(r.averageSecondaryCrossGenrePercentile)
    requires InUnitRangeOrNaN(r.averageDescriptorPercentile)
    requires r.averagePercentile
          == Composite(r.ratingPercentile, r.ratingCountPercentile,
                       r.averagePrimaryGenrePercentile, r.averageSecondaryGenrePercentile,
                       r.averagePrimaryCrossGenrePercentile, r.averageSecondaryCrossGenrePercentile,
                       r.averageDescriptorPercentile)
    ensures r.averagePercentile.Some? ==>
              && r.averagePrimaryGenrePercentile.Some? && r.averageSecondaryGenrePercentile.Some?
              && r.averagePrimaryCrossGenrePercentile.Some? && r.averageSecondaryCrossGenrePercentile.Some?
              && r.averageDescriptorPercentile.Some?
              && r.averagePercentile.value
                 == WeightedMean(r.ratingPercentile, r.ratingCountPercentile,
                                 r.averagePrimaryGenrePercentile.value, r.averageSecondaryGenrePercentile.value,
                                 r.averagePrimaryCrossGenrePercentile.value,
                                 r.averageSecondaryCrossGenrePercentile.value,
                                 r.averageDescriptorPercentile.value)
  {
  }

  /** Scoring against a history whose primary and secondary genre tables are
      exchanged exchanges the straight and cross genre components. */
  lemma SwappedGenreTables(album: ChartAlbum, history: History)
    ensures var swapped := history.(primaryGenres := history.secondaryGenres,
                                    secondaryGenres := history.primaryGenres);
            var r := Score(album, history);
            var s := Score(album, swapped);
            && s.averagePrimaryGenrePercentile == r.averagePrimaryCrossGenrePercentile
            && s.averagePrimaryCrossGenrePercentile == r.averagePrimaryGenrePercentile
            && s.averageSecondaryGenrePercentile == r.averageSecondaryCrossGenrePercentile
            && s.averageSecondaryCrossGenrePercentile == r.averageSecondaryGenrePercentile
  {
  }

  /** The sort key of the ranking. */
  function ScoreOf(item: RecommendationItem): real {
    item.averagePercentile.GetOr(0.0)
  }

  /** Every chart album carries at least one primary genre, secondary genre
      and descriptor, so that no composite is `NaN`. */
  predicate FullyTagged(chart: seq<ChartAlbum>) {
    forall i | 0 <= i < |chart| ::
      |chart[i].primaryGenres| > 0 && |chart[i].secondaryGenres| > 0 && |chart[i].descriptors| > 0
  }

  function ScoreAll(chart: seq<ChartAlbum>, history: History): (r: seq<RecommendationItem>)
    ensures |r| == |chart|
    ensures forall i | 0 <= i < |r| :: r[i] == Score(chart[i], history)
  {
    seq(|chart|, i requires 0 <= i < |chart| => Score(chart[i], history))
  }

  /** Sorting by composite, largest first and stable on ties, then keeping
      the first ten: the report is as long as it can be up to ten, ordered,
      drawn from the scored items, and no item left out beats one kept. */
  function Rank(scored: seq<RecommendationItem>): (r: seq<RecommendationItem>)
    requires forall i | 0 <= i < |scored| :: scored[i].averagePercentile.Some?
    ensures |r| == if |scored| < ReportSize then |scored| else ReportSize
    ensures forall i | 0 <= i < |r| :: r[i].averagePercentile.Some?
    ensures Sorting.SortedDesc(r, ScoreOf)
    ensures multiset(r) <= multiset(scored)
    ensures forall x, i | x in multiset(scored) - multiset(r) && 0 <= i < |r|
              :: ScoreOf(x) <= ScoreOf(r[i])
    ensures Sorting.TieOrderKept(r, scored, ScoreOf)
  {
    var r := Pick(Sorting.SortDesc(scored, ScoreOf), ReportSize);
    RankedPrefix(scored);
    RankKeepsTies(scored);
    r
  }

  /** Ties keep their scored order through the stable sort, and the cut to
      ten keeps the earliest of them. */
  lemma RankKeepsTies(scored: seq<RecommendationItem>)
    ensures Sorting.TieOrderKept(Pick(Sorting.SortDesc(scored, ScoreOf), ReportSize), scored, ScoreOf)
  {
    var sorted := Sorting.SortDesc(scored, ScoreOf);
    var n := if ReportSize < |sorted| then ReportSize else |sorted|;
    assert Pick(sorted, ReportSize) == sorted[..n];
    forall v
      ensures var w := Sorting.WithKey(sorted[..n], ScoreOf, v);
              |w| <= |Sorting.WithKey(scored, ScoreOf, v)| && w == Sorting.WithKey(scored, ScoreOf, v)[..|w|]
    {
      Sorting.SortDescStable(scored, ScoreOf, v);
      Sorting.WithKeyPrefix(sorted, ScoreOf, v, n);
    }
  }

  /** The kept items are the sorted list's prefix of length min(n, 10). */
  lemma RankedPrefix(scored: seq<RecommendationItem>)
    requires forall i | 0 <= i < |scored| :: scored[i].averagePercentile.Some?
    ensures var sorted := Sorting.SortDesc(scored, ScoreOf);
            var r := Pick(sorted, ReportSize);
            && |r| == (if |scored| < ReportSize then |scored| else ReportSize)
            && (forall i | 0 <= i < |r| :: r[i].averagePercentile.Some?)
            && Sorting.SortedDesc(r, ScoreOf)
            && multiset(r) <= multiset(scored)
            && (forall x, i | x in multiset(scored) - multiset(r) && 0 <= i < |r| :: ScoreOf(x) <= ScoreOf(r[i]))
  {
    var sorted := Sorting.SortDesc(scored, ScoreOf);
    var n := if ReportSize < |sorted| then ReportSize else |sorted|;
    assert Pick(sorted, ReportSize) == sorted[..n];
    Sorting.PrefixOfSorted(sorted, ScoreOf, n);
    AllDefinedSubset(scored, sorted[..n]);
  }

  lemma AllDefinedSubset(s: seq<RecommendationItem>, r: seq<RecommendationItem>)
    requires forall i | 0 <= i < |s| :: s[i].averagePercentile.Some?
    requires multiset(r) <= multiset(s)
    ensures forall i | 0 <= i < |r| :: r[i].averagePercentile.Some?
  {
    forall i | 0 <= i < |r|
      ensures r[i].averagePercentile.Some?
    {
      assert r[i] in multiset(r);
      assert r[i] in multiset(s);
      assert r[i] in s;
      var k :| 0 <= k < |s| && s[k] == r[i];
    }
  }

  /** The pure part of `getChartRecommendations`: score every chart album
      and rank the scored list. */
  function GetChartRecommendations(chart: seq<ChartAlbum>, history: History): (r: seq<RecommendationItem>)
    requires FullyTagged(chart)
    ensures |r| == if |chart| < ReportSize then |chart| else ReportSize
    ensures forall i | 0 <= i < |r| :: r[i].chartAlbum in chart
    ensures Sorting.SortedDesc(r, ScoreOf)
    ensures multiset(r) <= multiset(ScoreAll(chart, history))
    ensures forall x, i | x in multiset(ScoreAll(chart, history)) - multiset(r) && 0 <= i < |r|
              :: ScoreOf(x) <= ScoreOf(r[i])
    ensures Sorting.TieOrderKept(r, ScoreAll(chart, history), ScoreOf)
  {
    var scored := ScoreAll(chart, history);
    ScoreAllDefined(chart, history);
    var r := Rank(scored);
    RankedFromChart(chart, history, r);
    r
  }

  lemma ScoreAllDefined(chart: seq<ChartAlbum>, history: History)
    requires FullyTagged(chart)
    ensures forall i | 0 <= i < |chart| :: ScoreAll(chart, history)[i].averagePercentile.Some?
  {
    var scored := ScoreAll(chart, history);
    forall i | 0 <= i < |chart|
      ensures scored[i].averagePercentile.Some?
    {
      assert scored[i] == Score(chart[i], history);
    }
  }

  lemma RankedFromChart(chart: seq<ChartAlbum>, history: History, r: seq<RecommendationItem>)
    requires multiset(r) <= multiset(ScoreAll(chart, history))
    ensures forall i | 0 <= i < |r| :: r[i].chartAlbum in chart
  {
    var scored := ScoreAll(chart, history);
    forall i | 0 <= i < |r|
      ensures r[i].chartAlbum in chart
    {
      assert r[i] in multiset(r);
      assert r[i] in scored;
      var k :| 0 <= k < |scored| && scored[k] == r[i];
      assert r[i].chartAlbum == chart[k];
    }
  }

  /** The ranking is the stable descending sort of the scored chart: items
      with equal composite keep their chart order. */
  lemma RankingIsStable(chart: seq<ChartAlbum>, history: History, v: real)
    ensures Sorting.WithKey(Sorting.SortDesc(ScoreAll(chart, history), ScoreOf), ScoreOf, v)
         == Sorting.WithKey(ScoreAll(chart, history), ScoreOf, v)
  {
    Sorting.SortDescStable(ScoreAll(chart, history), ScoreOf, v);
  }
}

=== FILE: results.dfy ===
/** Failure-carrying wrappers shared by the whole model.

    `Option` stands for a JavaScript value that may be `undefined` (or, for
    numbers, `NaN`); `Result` stands for a promise that either resolves with a
    value or rejects with an error.
 */
module Results {

  datatype Option<+T> = None | Some(value: T) {

    /** The wrapped value, or `default` when there is none. */
    function GetOr(default: T): T {
      match this
      case Some(v) => v
      case None => default
    }
  }

  datatype Result<+T, +E> = Success(value: T) | Failure(error: E) {

    predicate IsFailure() {
      Failure?
    }

    function PropagateFailure<U>(): Result<U, E>
      requires Failure?
    {
      Failure(error)
    }

    function Extract(): T
      requires Success?
    {
      value
    }
  }
}

=== FILE: rym.dfy ===
/** The staleness-aware album-data cache of the scraper: the one-day age
    test, the fetcher (search, then read the release page) and
    `loadRymAlbumData`, which skips fresh data and otherwise fetches and
    upserts.

    The browser is a `Site`: what a search page lists for a query and what
    a release page yields. The database is two maps keyed by album id, the
    library albums and the stored album data; the clock is a parameter
    `now` in milliseconds.
 */
module Rym {
  import opened Results

  /** One day, with every day 86,400,000 ms long. */
  const DayMs: int := 86_400_000

  /** The data scraped from a release page (`RYMAlbumData`). */
  datatype AlbumData = AlbumData(
    rating: real,
    ratingCount: real,
    primaryGenres: seq<string>,
    secondaryGenres: seq<string>,
    descriptors: seq<string>)

  /** A stored album-data row: the scraped fields and the time of the last
      write. */
  datatype StoredData = StoredData(data: AlbumData, updatedAt: int)

  /** Album id to its stored data; at most one row per album by
      construction. */
  type Store = map<string, StoredData>

  /** A library album with its artists' names, in the order the library
      holds them. */
  datatype Album = Album(id: string, name: string, artistNames: seq<string>)

  datatype SearchResult = SearchResult(releaseName: string, releaseHref: string)

  /** The scraped site: the results a search page lists for a query, and
      the data a release page yields (`None` when the extractor finds no
      release block). */
  datatype Site = Site(
    searchResults: string -> seq<SearchResult>,
    releasePage: string -> Option<AlbumData>)

  datatype RymError =
    | NoResultsFound      // "No results found"
    | AlbumDataNotFound   // "Couldn't find album data"
    | AlbumNotFound       // "Couldn't find album"
    | NoArtist            // `album.artists[0].name` on an album without artists

  /** `isOlderThan1Day`: the write happened strictly before one day ago. */
  predicate IsOlderThan1Day(updatedAt: int, now: int) {
    updatedAt < now - DayMs
  }

  /** Data is stale exactly when it is more than a day old; data exactly one
      day old is still fresh. */
  lemma StalenessIsStrict(updatedAt: int, now: int)
    ensures IsOlderThan1Day(updatedAt, now) <==> now - updatedAt > DayMs
    ensures !IsOlderThan1Day(now - DayMs, now)
    ensures IsOlderThan1Day(now - DayMs - 1, now)
  {
  }

  /** `search`: the first listed result, or an error when there is none. */
  function Search(site: Site, query: string): (r: Result<SearchResult, RymError>)
    ensures r.Failure? <==> |site.searchResults(query)| == 0
    ensures r.Failure? ==> r.error == NoResultsFound
    ensures r.Success? ==> r.value == site.searchResults(query)[0]
  {
    var results := site.searchResults(query);
    if |results| == 0 then Failure(NoResultsFound) else Success(results[0])
  }

  /** `fetchAlbumData`: search for "<artist> <album>", open the first hit's
      release page and read its data. */
  function FetchAlbumData(site: Site, albumName: string, artistName: string): (r: Result<AlbumData, RymError>)
    ensures var hits := site.searchResults(artistName + " " + albumName);
            && (|hits| == 0 ==> r == Failure(NoResultsFound))
            && (|hits| > 0 ==> match site.releasePage(hits[0].releaseHref)
                                case None => r == Failure(AlbumDataNotFound)
                                case Some(d) => r == Success(d))
  {
    var hit :- Search(site, artistName + " " + albumName);
    match site.releasePage(hit.releaseHref)
    case None => Failure(AlbumDataNotFound)
    case Some(data) => Success(data)
  }

  /** The upsert keyed by album id: the album's row becomes the new data
      written at `now`, inserted or replacing the old row, and every other
      row stays as it was. The write time is assumed to be `now`. */
  function Upsert(store: Store, albumId: string, data: AlbumData, now: int): (r: Store)
    ensures r.Keys == store.Keys + {albumId}
    ensures r[albumId] == StoredData(data, now)
    ensures forall id | id in store && id != albumId :: r[id] == store[id]
  {
    store[albumId := StoredData(data, now)]
  }

  /** Writing twice for one album leaves only the second write. */
  lemma UpsertLastWriteWins(store: Store, albumId: string, first: AlbumData, t1: int,
                            second: AlbumData, t2: int)
    ensures Upsert(Upsert(store, albumId, first, t1), albumId, second, t2) == Upsert(store, albumId, second, t2)
  {
  }

  /** Writing the same row twice is writing it once. */
  lemma UpsertIdempotent(store: Store, albumId: string, data: AlbumData, now: int)
    ensures Upsert(Upsert(store, albumId, data, now), albumId, data, now) == Upsert(store, albumId, data, now)
  {
  }

  /** Whether `loadRymAlbumData` fetches: no stored row, or a stale one. */
  predicate NeedsRefresh(store: Store, albumId: string, now: int) {
    albumId !in store || IsOlderThan1Day(store[albumId].updatedAt, now)
  }

  datatype LoadStatus = Skipped | Saved(data: AlbumData)

  /** What a load leaves behind: the store and how the call ended. */
  datatype Load = Load(store: Store, status: Result<LoadStatus, RymError>)

  /** `loadRymAlbumData`: fail for an unknown album; skip when fresh data is
      stored; otherwise fetch with the album's first artist and upsert. */
  function LoadRymAlbumData(albums: map<string, Album>, store: Store, albumId: string, site: Site, now: int): (r: Load)
    ensures albumId !in albums ==> r == Load(store, Failure(AlbumNotFound))
    ensures albumId in albums && !NeedsRefresh(store, albumId, now) ==> r == Load(store, Success(Skipped))
    ensures albumId in albums && NeedsRefresh(store, albumId, now) && |albums[albumId].artistNames| == 0
            ==> r == Load(store, Failure(NoArtist))
    ensures albumId in albums && NeedsRefresh(store, albumId, now) && |albums[albumId].artistNames| > 0 ==>
              var f := FetchAlbumData(site, albums[albumId].name, albums[albumId].artistNames[0]);
              && (f.Failure? ==> r == Load(store, Failure(f.error)))
              && (f.Success? ==> r == Load(Upsert(store, albumId, f.value, now), Success(Saved(f.value))))
    ensures r.status.Failure? ==> r.store == store
    ensures r.status == Success(Skipped) ==> r.store == store
    ensures r.status.Success? && r.status.value.Saved? ==>
              && albumId in albums
              && NeedsRefresh(store, albumId, now)
              && r.store.Keys == store.Keys + {albumId}
              && r.store[albumId] == StoredData(r.status.value.data, now)
              && (forall id | id in store && id != albumId :: r.store[id] == store[id])
              && FetchAlbumData(site, albums[albumId].name, albums[albumId].artistNames[0])
                 == Success(r.status.value.data)
  {
    if albumId !in albums then
      Load(store, Failure(AlbumNotFound))
    else if !NeedsRefresh(store, albumId, now) then
      Load(store, Success(Skipped))
    else
      var album := albums[albumId];
      if |album.artistNames| == 0 then
        Load(store, Failure(NoArtist))
      else
        match FetchAlbumData(site, album.name, album.artistNames[0])
        case Failure(e) => Load(store, Failure(e))
        case Success(data) => Load(Upsert(store, albumId, data, now), Success(Saved(data)))
  }

  /** A load that saved data makes every load in the following day a
      no-op. */
  lemma LoadIsQuietForADay(albums: map<string, Album>, store: Store, albumId: string, site: Site,
                           now: int, later: int)
    requires now <= later <= now + DayMs
    requires LoadRymAlbumData(albums, store, albumId, site, now).status.Success?
    requires LoadRymAlbumData(albums, store, albumId, site, now).status.value.Saved?
    ensures var first := LoadRymAlbumData(albums, store, albumId, site, now);
            LoadRymAlbumData(albums, first.store, albumId, site, later) == Load(first.store, Success(Skipped))
  {
  }

  /** After any successful load the album has a row, written no earlier than
      a day before `now`. */
  lemma LoadLeavesFreshRow(albums: map<string, Album>, store: Store, albumId: string, site: Site, now: int)
    requires LoadRymAlbumData(albums, store, albumId, site, now).status.Success?
    ensures var r := LoadRymAlbumData(albums, store, albumId, site, now);
            albumId in r.store && !NeedsRefresh(r.store, albumId, now)
  {
  }
}

=== FILE: rym_text.dfy ===
/** The text side of the scraper: the filters the x-ray extractor applies to
    scraped strings (`trim`, `toReleaseType`, `toNumber`, `dropTrailingComma`,
    `dropTrailingDot`) and the path of a chart page.
 */
module RymText {
  import opened JsText

  /** `toReleaseType`: the release type in lower case, with "ep" read as
      "album". */
  function ToReleaseType(value: string): (r: string)
    ensures forall i | 0 <= i < |r| :: !('A' <= r[i] <= 'Z')
  {
    var kind := ToLower(value);
    if kind == "ep" then "album" else kind
  }

  /** The spellings whose lower case is "ep" are exactly the four mixes of
      case of those two letters. */
  lemma LowerIsEp(value: string)
    ensures ToLower(value) == "ep" <==> value in {"ep", "eP", "Ep", "EP"}
  {
    if ToLower(value) == "ep" {
      assert |value| == 2;
      assert value[0] == 'e' || value[0] == 'E';
      assert value[1] == 'p' || value[1] == 'P';
      assert value == [value[0], value[1]];
    }
  }

  /** `toReleaseType` gives "album" exactly for "ep" and "album" in any
      case; every other value comes back lower-cased and otherwise as it
      was. */
  lemma ReleaseTypeCases(value: string)
    ensures ToReleaseType(value) == "album" <==> ToLower(value) == "ep" || ToLower(value) == "album"
    ensures ToLower(value) != "ep" ==> ToReleaseType(value) == ToLower(value)
    ensures ToReleaseType(value) == "album" <==> value in {"ep", "eP", "Ep", "EP"} || ToLower(value) == "album"
  {
    LowerIsEp(value);
  }

  lemma LowerIdempotent(s: string)
    ensures ToLower(ToLower(s)) == ToLower(s)
  {
  }

  /** Applying the filter to its own output changes nothing. */
  lemma ReleaseTypeIdempotent(value: string)
    ensures ToReleaseType(ToReleaseType(value)) == ToReleaseType(value)
  {
    LowerIdempotent(value);
    assert ToLower("album") == "album";
  }

  /** `value.replace(/c/g, "")`: every `c` removed, everything else kept in
      order. */
  function RemoveAll(s: string, c: char): (r: string)
    ensures c !in r
    ensures |r| <= |s|
    ensures c !in s ==> r == s
    ensures multiset(r) == multiset(s)[c := 0]
  {
    if |s| == 0 then ""
    else
      assert s == [s[0]] + s[1..];
      if s[0] == c then RemoveAll(s[1..], c)
      else [s[0]] + RemoveAll(s[1..], c)
  }

  /** Removing from a concatenation removes from each part. */
  lemma {:induction false} RemoveAllConcat(a: string, b: string, c: char)
    ensures RemoveAll(a + b, c) == RemoveAll(a, c) + RemoveAll(b, c)
    decreases |a|
  {
    if |a| > 0 {
      assert (a + b)[0] == a[0];
      assert (a + b)[1..] == a[1..] + b;
      RemoveAllConcat(a[1..], b, c);
    } else {
      assert a + b == b;
    }
  }

  /** On one character, `c` goes and anything else stays. */
  lemma RemoveAllOne(x: char, c: char)
    ensures RemoveAll([x], c) == if x == c then "" else [x]
  {
    assert [x][1..] == "";
  }

  /** `toNumber`: commas dropped, the rest read as a JavaScript number, and
      `NaN` (as well as 0) replaced by 0. */
  function ToNumber(value: string): (r: real)
    ensures Trim(RemoveAll(value, ',')) == "" ==> r == 0.0
    ensures r != 0.0 ==> JsNumber(RemoveAll(value, ',')).Some? && JsNumber(RemoveAll(value, ',')).value == r
  {
    JsNumber(RemoveAll(value, ',')).GetOr(0.0)
  }

  predicate IsDigitOrComma(c: char) {
    IsDigit(c) || c == ','
  }

  lemma {:induction false} RemoveCommasKeepsDigits(s: string)
    requires forall i | 0 <= i < |s| :: IsDigitOrComma(s[i])
    ensures AllDigits(RemoveAll(s, ','))
    decreases |s|
  {
    if |s| > 0 {
      RemoveCommasKeepsDigits(s[1..]);
    }
  }

  lemma DigitsAreTrimmed(s: string)
    requires AllDigits(s)
    ensures Trim(s) == s
  {
    assert "" + s + "" == s;
    TrimOfPadded("", s, "");
  }

  /** On digits and commas (thousands separators), `toNumber` gives the
      value of the digits; with no digit at all it gives 0. */
  lemma ToNumberOfGroupedDigits(value: string)
    requires forall i | 0 <= i < |value| :: IsDigitOrComma(value[i])
    ensures AllDigits(RemoveAll(value, ','))
    ensures ToNumber(value) == DigitsValue(RemoveAll(value, ',')) as real
  {
    var t := RemoveAll(value, ',');
    RemoveCommasKeepsDigits(value);
    DigitsAreTrimmed(t);
    if |t| > 0 {
      assert t[0] != '-' && t[0] != '+';
      ParseUnsignedDigits(t);
    }
  }

  /** `toNumber` reads back what `String(n)` writes. */
  lemma ToNumberOfNatToString(n: nat)
    ensures ToNumber(NatToString(n)) == n as real
  {
    var s := NatToString(n);
    ToNumberOfGroupedDigits(s);
  }

  /** Text that does not start like a number (after commas are dropped and
      white space trimmed) gives 0. */
  lemma ToNumberOfNonNumeric(value: string)
    requires var t := Trim(RemoveAll(value, ','));
             |t| > 0 && !IsDigit(t[0]) && t[0] != '+' && t[0] != '-' && t[0] != '.'
    ensures ToNumber(value) == 0.0
  {
    var t := Trim(RemoveAll(value, ','));
    var k := FindChar(t, '.');
    assert k > 0;
    assert !AllDigits(t[..k]) by {
      assert t[..k][0] == t[0];
    }
  }

  /** Number text: digits, points and a leading minus. */
  predicate IsNumberText(s: string)
  {
    |s| > 0 && forall i | 0 <= i < |s| :: IsDigit(s[i]) || s[i] == '.' || (i == 0 && s[i] == '-')
  }

  /** Number text has no comma to drop. */
  lemma {:induction false} NumberTextHasNoComma(s: string)
    requires IsNumberText(s)
    ensures RemoveAll(s, ',') == s
  {
    assert ',' !in s by {
      forall i | 0 <= i < |s|
        ensures s[i] != ','
      {
      }
    }
  }

  /** Number text has no white space to trim. */
  lemma {:induction false} NumberTextIsTrimmed(s: string)
    requires IsNumberText(s)
    ensures Trim(s) == s
  {
    assert IsTrimmed(s) by {
      assert !IsWhitespace(s[0]);
      assert !IsWhitespace(s[|s| - 1]);
    }
    assert "" + s + "" == s;
    TrimOfPadded("", s, "");
  }

  /** Both together: `toNumber` reads number text as `Number` does. */
  lemma {:induction false} PlainNumberText(s: string)
    requires IsNumberText(s)
    ensures Trim(RemoveAll(s, ',')) == s
  {
    NumberTextHasNoComma(s);
    NumberTextIsTrimmed(s);
  }

  /** A decimal such as "3.85" reads as its whole part plus its fraction. */
  lemma {:induction false} ToNumberOfDecimal(s: string, k: nat)
    requires k < |s| && |s| > 1 && s[k] == '.'
    requires AllDigits(s[..k]) && AllDigits(s[k + 1..])
    ensures ToNumber(s) == DigitsValue(s[..k]) as real + FractionValue(s[k + 1..])
  {
    assert IsNumberText(s) by {
      forall i | 0 <= i < |s|
        ensures IsDigit(s[i]) || s[i] == '.'
      {
        if i < k {
          assert s[..k][i] == s[i];
        } else if i > k {
          assert s[k + 1..][i - k - 1] == s[i];
        }
      }
    }
    assert s[0] != '-' && s[0] != '+' by {
      if k > 0 {
        assert s[..k][0] == s[0];
      }
    }
    PlainNumberText(s);
    JsNumberOfUnsigned(s);
    ParseUnsignedDecimal(s, k);
  }

  /** The rating of a release page such as "3.85" reads as 3.85. */
  lemma ToNumberOfRating()
    ensures ToNumber("3.85") == 3.85
  {
    var s := "3.85";
    assert s[..1] == "3" && s[2..] == "85";
    assert DigitsValue("3") == 3;
    assert FractionValue("85") == 0.85 by {
      assert "85"[1..] == "5" && "5"[1..] == "";
    }
    ToNumberOfDecimal(s, 1);
  }

  /** A minus sign in front of digits negates their value. */
  lemma {:induction false} ToNumberOfNegative(ds: string)
    requires |ds| > 0 && AllDigits(ds)
    ensures ToNumber("-" + ds) == -(DigitsValue(ds) as real)
  {
    var s := "-" + ds;
    assert IsNumberText(s) by {
      assert forall i | 1 <= i < |s| :: s[i] == ds[i - 1];
    }
    PlainNumberText(s);
    assert s[1..] == ds;
    ParseUnsignedDigits(ds);
  }

  /** Text that starts like a number but holds any character other than a
      digit or the point after its first one ("12abc", "-1x") is `NaN`,
      read as 0. */
  lemma {:induction false} ToNumberOfJunk(value: string, i: nat)
    requires var t := Trim(RemoveAll(value, ','));
             0 < i < |t| && !IsDigit(t[i]) && t[i] != '.'
    ensures ToNumber(value) == 0.0
  {
    JsNumberOfJunk(RemoveAll(value, ','), i);
  }

  /** Two decimal points ("1.2.3") make the text `NaN`, read as 0. */
  lemma {:induction false} ToNumberOfTwoPoints(value: string, i: nat, j: nat)
    requires var t := Trim(RemoveAll(value, ','));
             i < j < |t| && t[i] == '.' && t[j] == '.'
    ensures ToNumber(value) == 0.0
  {
    JsNumberOfTwoPoints(RemoveAll(value, ','), i, j);
  }

  /** A bare sign or a bare point holds no digit and reads as 0. */
  lemma ToNumberOfBareSymbol(c: char)
    requires c == '-' || c == '+' || c == '.'
    ensures ToNumber([c]) == 0.0
  {
    assert ',' !in [c];
    JsNumberOfBareSymbol(c);
  }

  /** `value.replace(/c\s*$/, "").trim()`: a `c` followed only by white
      space up to the end is removed, then the result is trimmed. */
  function DropTrailing(value: string, c: char): (r: string)
    requires !IsWhitespace(c)
    ensures IsTrimmed(r) && |r| <= |value|
  {
    var t := TrimEnd(value);
    if |t| > 0 && t[|t| - 1] == c then Trim(t[..|t| - 1]) else Trim(value)
  }

  /** `dropTrailingComma`. */
  function DropTrailingComma(value: string): (r: string)
    ensures IsTrimmed(r) && |r| <= |value|
  {
    DropTrailing(value, ',')
  }

  /** `dropTrailingDot`. */
  function DropTrailingDot(value: string): (r: string)
    ensures IsTrimmed(r) && |r| <= |value|
  {
    DropTrailing(value, '.')
  }

  /** When the pattern matches, at a `c` whose tail is all white space, the
      result is the text before that `c`, trimmed. */
  lemma DropTrailingAtMatch(value: string, c: char, k: nat)
    requires !IsWhitespace(c)
    requires k < |value| && value[k] == c && AllWhitespace(value[k + 1..])
    ensures DropTrailing(value, c) == Trim(value[..k])
  {
    assert value == value[..k + 1] + value[k + 1..];
    TrimEndOfPadded(value[..k + 1], value[k + 1..]);
    assert value[..k + 1][..k] == value[..k];
  }

  /** When no `c` is followed only by white space, the filter is `trim`. */
  lemma DropTrailingWithoutMatch(value: string, c: char)
    requires !IsWhitespace(c)
    requires forall k | 0 <= k < |value| && value[k] == c :: !AllWhitespace(value[k + 1..])
    ensures DropTrailing(value, c) == Trim(value)
  {
    var t := TrimEnd(value);
    if |t| > 0 && t[|t| - 1] == c {
      assert false;
    }
  }

  const ChartRoot: string := "charts/top/album/"

  /** The `-genre` entries of the genre filter. */
  function ExcludedSegments(excludeGenres: seq<string>): (r: seq<string>)
    ensures |r| == |excludeGenres|
    ensures forall i | 0 <= i < |r| :: r[i] == "-" + excludeGenres[i]
  {
    seq(|excludeGenres|, i requires 0 <= i < |excludeGenres| => "-" + excludeGenres[i])
  }

  /** The path of a chart page (before `getRymUrl` adds the host). The
      genre filter segment is always present: the exclusion list is an
      array, and every array is truthy, so `[]` still gives "/g:". */
  function ChartPath(year: string, page: nat, excludeGenres: seq<string>): (r: string)
    ensures |r| > |ChartRoot| + |year| && r[..|ChartRoot|] == ChartRoot
    ensures r[|ChartRoot|..|ChartRoot| + |year|] == year && r[|r| - 1] == '/'
  {
    ChartRoot + year + "/g:" + Join(ExcludedSegments(excludeGenres), ",") + "/" + NatToString(page) + "/"
  }

  /** With nothing excluded the filter segment is the bare "/g:". */
  lemma ChartPathWithoutExclusions(year: string, page: nat)
    ensures ChartPath(year, page, []) == ChartRoot + year + "/g:/" + NatToString(page) + "/"
  {
    assert ExcludedSegments([]) == [];
  }

  /** As written, an empty exclusion list still yields a genre filter: the
      path carries an empty "g:" segment. */
  lemma EmptyExclusionStillFilters(year: string, page: nat)
    requires '/' !in year
    ensures Split(ChartPath(year, page, []), '/')
         == ["charts", "top", "album", year, "g:", NatToString(page), ""]
  {
    ChartPathParts(year, page, []);
    assert ExcludedSegments([]) == [];
    assert "g:" + Join(ExcludedSegments([]), ",") == "g:";
  }

  /** The chart path with the filter segment only when some genre is
      excluded, which the dead `: ""` branch of the conditional was
      evidently meant to give. */
  function ChartPathIntended(year: string, page: nat, excludeGenres: seq<string>): (r: string)
    ensures |excludeGenres| > 0 ==> r == ChartPath(year, page, excludeGenres)
  {
    if |excludeGenres| == 0 then ChartRoot + year + "/" + NatToString(page) + "/"
    else ChartPath(year, page, excludeGenres)
  }

  /** Without exclusions the intended path has no filter segment: it splits
      into the root, the year and the page. */
  lemma ChartPathIntendedWithoutExclusions(year: string, page: nat)
    requires '/' !in year
    ensures Split(ChartPathIntended(year, page, []), '/')
         == ["charts", "top", "album", year, NatToString(page), ""]
  {
    var parts := ["charts", "top", "album", year, NatToString(page), ""];
    DigitsAvoidSlash(NatToString(page));
    IntendedLayout(year, page);
    SplitJoin(parts, '/');
  }

  /** Joining one more piece on the end adds one separator and the piece. */
  lemma {:induction false} JoinSnoc(xs: seq<string>, x: string, sep: string)
    requires |xs| > 0
    ensures Join(xs + [x], sep) == Join(xs, sep) + sep + x
    decreases |xs|
  {
    if |xs| > 1 {
      assert (xs + [x])[1..] == xs[1..] + [x];
      JoinSnoc(xs[1..], x, sep);
    }
  }

  /** The three fixed segments of the root. */
  lemma RootJoined()
    ensures Join(["charts", "top", "album"], "/") + "/" == ChartRoot
  {
    assert ["charts", "top", "album"][1..] == ["top", "album"];
    assert ["top", "album"][1..] == ["album"];
  }

  /** The intended path without exclusions is its six segments joined by
      "/". */
  lemma IntendedLayout(year: string, page: nat)
    ensures ChartPathIntended(year, page, []) == Join(["charts", "top", "album", year, NatToString(page), ""], "/")
  {
    var p := NatToString(page);
    var root := ["charts", "top", "album"];
    RootJoined();
    JoinSnoc(root, year, "/");
    JoinSnoc(root + [year], p, "/");
    JoinSnoc(root + [year, p], "", "/");
    assert root + [year] + [p] == root + [year, p];
    assert root + [year, p] + [""] == ["charts", "top", "album", year, p, ""];
  }

  /** The chart path splits on "/" into its seven parts, so the year, the
      genre filter and the page can be read back from it. */
  lemma ChartPathParts(year: string, page: nat, excludeGenres: seq<string>)
    requires '/' !in year
    requires forall i | 0 <= i < |excludeGenres| :: '/' !in excludeGenres[i]
    ensures Split(ChartPath(year, page, excludeGenres), '/')
         == ["charts", "top", "album", year,
             "g:" + Join(ExcludedSegments(excludeGenres), ","), NatToString(page), ""]
  {
    var filter := "g:" + Join(ExcludedSegments(excludeGenres), ",");
    var parts := ["charts", "top", "album", year, filter, NatToString(page), ""];
    FilterAvoidsSlash(excludeGenres);
    DigitsAvoidSlash(NatToString(page));
    ChartPathLayout(year, page, excludeGenres);
    SplitJoin(parts, '/');
  }

  /** The chart path is its seven segments joined by "/". */
  lemma ChartPathLayout(year: string, page: nat, excludeGenres: seq<string>)
    ensures ChartPath(year, page, excludeGenres)
         == Join(["charts", "top", "album", year, "g:" + Join(ExcludedSegments(excludeGenres), ","),
                  NatToString(page), ""], "/")
  {
    var joined := Join(ExcludedSegments(excludeGenres), ",");
    var f := "g:" + joined;
    var p := NatToString(page);
    var root := ["charts", "top", "album"];
    RootJoined();
    JoinSnoc(root, year, "/");
    JoinSnoc(root + [year], f, "/");
    JoinSnoc(root + [year, f], p, "/");
    JoinSnoc(root + [year, f, p], "", "/");
    assert root + [year] + [f] == root + [year, f];
    assert root + [year, f] + [p] == root + [year, f, p];
    assert root + [year, f, p] + [""] == ["charts", "top", "album", year, f, p, ""];
    assert ChartRoot + year + "/g:" + joined == ChartRoot + year + "/" + f;
  }

  lemma FilterAvoidsSlash(excludeGenres: seq<string>)
    requires forall i | 0 <= i < |excludeGenres| :: '/' !in excludeGenres[i]
    ensures '/' !in "g:" + Join(ExcludedSegments(excludeGenres), ",")
  {
    var segs := ExcludedSegments(excludeGenres);
    forall i | 0 <= i < |segs|
      ensures '/' !in segs[i]
    {
      assert segs[i] == "-" + excludeGenres[i];
    }
    JoinAvoids(segs, ",", '/');
  }

  lemma DigitsAvoidSlash(s: string)
    requires AllDigits(s)
    ensures '/' !in s
  {
  }

  lemma {:induction false} JoinAvoids(xs: seq<string>, sep: string, c: char)
    requires c !in sep
    requires forall i | 0 <= i < |xs| :: c !in xs[i]
    ensures c !in Join(xs, sep)
    decreases |xs|
  {
    if |xs| > 1 {
      JoinAvoids(xs[1..], sep, c);
    }
  }

  /** The excluded genres can be read back from the filter segment when no
      genre contains a comma. */
  lemma ExcludedGenresRecoverable(excludeGenres: seq<string>)
    requires |excludeGenres| > 0
    requires forall i | 0 <= i < |excludeGenres| :: ',' !in excludeGenres[i]
    ensures Split(Join(ExcludedSegments(excludeGenres), ","), ',') == ExcludedSegments(excludeGenres)
  {
    var segs := ExcludedSegments(excludeGenres);
    forall i | 0 <= i < |segs|
      ensures ',' !in segs[i]
    {
      assert segs[i] == "-" + excludeGenres[i];
    }
    SplitJoin(segs, ',');
  }
}

=== FILE: sorting.dfy ===
/** A stable sort by a real-valued key, largest key first, as
    `Array.prototype.sort` (stable since ECMAScript 2019) computes it for a
    comparator `(a, b) => key(b) - key(a)`. The ascending numeric sort of the
    scorer is the same sort on the negated value.
 */
module Sorting {

  ghost predicate SortedDesc<T>(s: seq<T>, key: T -> real) {
    forall i, j | 0 <= i < j < |s| :: key(s[i]) >= key(s[j])
  }

  /** The elements of `s` whose key is `v`, in their order in `s`. */
  function WithKey<T>(s: seq<T>, key: T -> real, v: real): seq<T> {
    if |s| == 0 then []
    else if key(s[0]) == v then [s[0]] + WithKey(s[1..], key, v)
    else WithKey(s[1..], key, v)
  }

  /** For every key value, the elements of `r` carrying it are the first
      elements of `s` carrying it, in the same order: ties are kept in
      their original order and the earliest of them survive. */
  ghost predicate TieOrderKept<T>(r: seq<T>, s: seq<T>, key: T -> real) {
    forall v :: var w := WithKey(r, key, v);
                |w| <= |WithKey(s, key, v)| && w == WithKey(s, key, v)[..|w|]
  }

  /** Cutting a list short keeps, for every key value, a prefix of the
      elements carrying it. */
  lemma {:induction false} WithKeyPrefix<T>(s: seq<T>, key: T -> real, v: real, n: nat)
    requires n <= |s|
    ensures var w := WithKey(s[..n], key, v);
            |w| <= |WithKey(s, key, v)| && w == WithKey(s, key, v)[..|w|]
    decreases n
  {
    if n > 0 {
      assert s[..n][0] == s[0];
      assert s[..n][1..] == s[1..][..n - 1];
      WithKeyPrefix(s[1..], key, v, n - 1);
    } else {
      assert s[..n] == [];
    }
  }

  /** How many elements of `s` satisfy `p`. */
  function CountWhere<T>(s: seq<T>, p: T -> bool): nat {
    if |s| == 0 then 0
    else (if p(s[0]) then 1 else 0) + CountWhere(s[1..], p)
  }

  /** Puts `x` in front of the first element whose key is not larger. */
  function Insert<T>(x: T, s: seq<T>, key: T -> real): seq<T> {
    if |s| == 0 then [x]
    else if key(x) >= key(s[0]) then [x] + s
    else [s[0]] + Insert(x, s[1..], key)
  }

  /** Inserting adds `x` and nothing else. */
  lemma {:induction false} InsertAddsOne<T>(x: T, s: seq<T>, key: T -> real)
    ensures |Insert(x, s, key)| == |s| + 1
    ensures multiset(Insert(x, s, key)) == multiset(s) + multiset{x}
    decreases |s|
  {
    if |s| > 0 && key(x) < key(s[0]) {
      InsertAddsOne(x, s[1..], key);
      assert s == [s[0]] + s[1..];
    }
  }

  /** A bound on every key survives an insertion under the same bound. */
  lemma {:induction false} InsertBounded<T>(x: T, s: seq<T>, key: T -> real, b: real)
    requires key(x) <= b
    requires forall k | 0 <= k < |s| :: key(s[k]) <= b
    ensures forall k | 0 <= k < |Insert(x, s, key)| :: key(Insert(x, s, key)[k]) <= b
    decreases |s|
  {
    if |s| > 0 && key(x) < key(s[0]) {
      InsertBounded(x, s[1..], key, b);
    }
  }

  /** Inserting into a sorted list keeps it sorted. */
  lemma {:induction false} InsertKeepsOrder<T>(x: T, s: seq<T>, key: T -> real)
    requires SortedDesc(s, key)
    ensures SortedDesc(Insert(x, s, key), key)
    decreases |s|
  {
    if |s| > 0 && key(x) < key(s[0]) {
      var rest := Insert(x, s[1..], key);
      InsertKeepsOrder(x, s[1..], key);
      InsertBounded(x, s[1..], key, key(s[0]));
      var r := [s[0]] + rest;
      assert Insert(x, s, key) == r;
      forall i, j | 0 <= i < j < |r|
        ensures key(r[i]) >= key(r[j])
      {
        assert r[j] == rest[j - 1];
        if i > 0 {
          assert r[i] == rest[i - 1];
        }
      }
    }
  }

  /** Stable sort, largest key first. */
  function SortDesc<T>(s: seq<T>, key: T -> real): (r: seq<T>)
    ensures SortedDesc(r, key)
    ensures multiset(r) == multiset(s)
    ensures |r| == |s|
  {
    if |s| == 0 then []
    else
      var rest := SortDesc(s[1..], key);
      SortStep(s, rest, key);
      Insert(s[0], rest, key)
  }

  /** Inserting the head into the sorted tail sorts the whole list. */
  lemma SortStep<T>(s: seq<T>, rest: seq<T>, key: T -> real)
    requires |s| > 0
    requires SortedDesc(rest, key) && multiset(rest) == multiset(s[1..]) && |rest| == |s| - 1
    ensures SortedDesc(Insert(s[0], rest, key), key)
    ensures multiset(Insert(s[0], rest, key)) == multiset(s)
    ensures |Insert(s[0], rest, key)| == |s|
  {
    InsertAddsOne(s[0], rest, key);
    InsertKeepsOrder(s[0], rest, key);
    assert s == [s[0]] + s[1..];
  }

  lemma {:induction false} InsertWithKey<T>(x: T, s: seq<T>, key: T -> real, v: real)
    ensures WithKey(Insert(x, s, key), key, v)
         == (if key(x) == v then [x] else []) + WithKey(s, key, v)
    decreases |s|
  {
    if |s| == 0 {
    } else if key(x) >= key(s[0]) {
      assert ([x] + s)[1..] == s;
    } else {
      var rest := Insert(x, s[1..], key);
      assert ([s[0]] + rest)[1..] == rest;
      InsertWithKey(x, s[1..], key, v);
    }
  }

  /** Stability: for every key value, the elements carrying it keep their
      relative order. */
  lemma {:induction false} SortDescStable<T>(s: seq<T>, key: T -> real, v: real)
    ensures WithKey(SortDesc(s, key), key, v) == WithKey(s, key, v)
    decreases |s|
  {
    if |s| > 0 {
      SortDescStable(s[1..], key, v);
      InsertWithKey(s[0], SortDesc(s[1..], key), key, v);
    }
  }

  lemma {:induction false} InsertCount<T>(x: T, s: seq<T>, key: T -> real, p: T -> bool)
    ensures CountWhere(Insert(x, s, key), p) == (if p(x) then 1 else 0) + CountWhere(s, p)
    decreases |s|
  {
    if |s| == 0 {
    } else if key(x) >= key(s[0]) {
      assert ([x] + s)[1..] == s;
    } else {
      var rest := Insert(x, s[1..], key);
      assert ([s[0]] + rest)[1..] == rest;
      InsertCount(x, s[1..], key, p);
    }
  }

  /** Sorting does not change how many elements satisfy a property. */
  lemma {:induction false} SortDescCount<T>(s: seq<T>, key: T -> real, p: T -> bool)
    ensures CountWhere(SortDesc(s, key), p) == CountWhere(s, p)
    decreases |s|
  {
    if |s| > 0 {
      SortDescCount(s[1..], key, p);
      InsertCount(s[0], SortDesc(s[1..], key), key, p);
    }
  }

  /** The first `n` elements of a sorted list are a sub-multiset of it, and
      none of the elements left behind beats any of them. */
  lemma PrefixOfSorted<T>(sorted: seq<T>, key: T -> real, n: nat)
    requires n <= |sorted|
    requires SortedDesc(sorted, key)
    ensures SortedDesc(sorted[..n], key)
    ensures multiset(sorted[..n]) <= multiset(sorted)
    ensures forall x, i | x in multiset(sorted) - multiset(sorted[..n]) && 0 <= i < n
              :: key(x) <= key(sorted[i])
  {
    assert sorted == sorted[..n] + sorted[n..];
    assert multiset(sorted) == multiset(sorted[..n]) + multiset(sorted[n..]);
    forall x, i | x in multiset(sorted) - multiset(sorted[..n]) && 0 <= i < n
      ensures key(x) <= key(sorted[i])
    {
      assert x in sorted[n..];
      var k :| n <= k < |sorted| && sorted[k] == x;
    }
  }
}

=== FILE: text.dfy ===
/** The JavaScript string primitives the scraper filters and the chart URL
    builder rely on: `trim`, `toLowerCase`, `Number(...)` on decimal text,
    `Array.prototype.join` and `String.prototype.split` with a one-character
    separator, and the decimal rendering of a non-negative integer.
 */
module JsText {
  import opened Results

  /** The characters `String.prototype.trim` and the regular-expression
      class `\s` treat as white space: ECMAScript's WhiteSpace (TAB, VT, FF,
      SP, NBSP, ZWNBSP and every space separator of category Zs) together
      with its LineTerminator characters (LF, CR, LS, PS). */
  predicate IsWhitespace(c: char) {
    || c == '\t' || c == '\n' || c == '\U{000B}' || c == '\U{000C}' || c == '\r'
    || c == ' ' || c == '\U{00A0}' || c == '\U{1680}'
    || ('\U{2000}' <= c <= '\U{200A}')
    || c == '\U{2028}' || c == '\U{2029}' || c == '\U{202F}' || c == '\U{205F}'
    || c == '\U{3000}' || c == '\U{FEFF}'
  }

  predicate AllWhitespace(s: string) {
    forall i | 0 <= i < |s| :: IsWhitespace(s[i])
  }

  /** No white space at either end. */
  predicate IsTrimmed(s: string) {
    |s| == 0 || (!IsWhitespace(s[0]) && !IsWhitespace(s[|s| - 1]))
  }

  /** Drops the longest all-white-space prefix. */
  function TrimStart(s: string): (r: string)
    ensures |r| <= |s| && r == s[|s| - |r|..]
    ensures AllWhitespace(s[..|s| - |r|])
    ensures |r| == 0 || !IsWhitespace(r[0])
  {
    if |s| > 0 && IsWhitespace(s[0]) then
      var r := TrimStart(s[1..]);
      assert s[..|s| - |r|] == [s[0]] + s[1..][..|s| - 1 - |r|];
      r
    else
      s
  }

  /** Drops the longest all-white-space suffix. */
  function TrimEnd(s: string): (r: string)
    ensures |r| <= |s| && r == s[..|r|]
    ensures AllWhitespace(s[|r|..])
    ensures |r| == 0 || !IsWhitespace(r[|r| - 1])
  {
    if |s| > 0 && IsWhitespace(s[|s| - 1]) then
      var r := TrimEnd(s[..|s| - 1]);
      assert s[|r|..] == s[..|s| - 1][|r|..] + [s[|s| - 1]];
      r
    else
      s
  }

  /** `String.prototype.trim`. */
  function Trim(s: string): (r: string)
    ensures |r| <= |s|
    ensures IsTrimmed(r)
  {
    TrimEnd(TrimStart(s))
  }

  lemma {:induction false} TrimStartOfPadded(lead: string, t: string)
    requires AllWhitespace(lead)
    requires |t| == 0 || !IsWhitespace(t[0])
    ensures TrimStart(lead + t) == t
    decreases |lead|
  {
    if |lead| > 0 {
      assert (lead + t)[1..] == lead[1..] + t;
      TrimStartOfPadded(lead[1..], t);
    }
  }

  lemma {:induction false} TrimEndOfPadded(t: string, trail: string)
    requires AllWhitespace(trail)
    requires |t| == 0 || !IsWhitespace(t[|t| - 1])
    ensures TrimEnd(t + trail) == t
    decreases |trail|
  {
    if |trail| > 0 {
      assert (t + trail)[..|t + trail| - 1] == t + trail[..|trail| - 1];
      TrimEndOfPadded(t, trail[..|trail| - 1]);
    }
  }

  /** `trim` removes exactly the white space around the text: whatever
      white space surrounds a trimmed string, trimming gives that string. */
  lemma TrimOfPadded(lead: string, mid: string, trail: string)
    requires AllWhitespace(lead) && AllWhitespace(trail)
    requires IsTrimmed(mid)
    ensures Trim(lead + mid + trail) == mid
  {
    if |mid| == 0 {
      assert lead + mid + trail == (lead + trail) + "";
      TrimStartOfPadded(lead + trail, "");
    } else {
      assert lead + mid + trail == lead + (mid + trail);
      TrimStartOfPadded(lead, mid + trail);
      TrimEndOfPadded(mid, trail);
    }
  }

  /** Trimming twice is trimming once. */
  lemma TrimIdempotent(s: string)
    ensures Trim(Trim(s)) == Trim(s)
  {
    var t := Trim(s);
    assert TrimStart(t) == t;
    assert TrimEnd(t) == t;
  }

  /** `toLowerCase` restricted to ASCII letters. */
  function LowerChar(c: char): (r: char)
    ensures !('A' <= r <= 'Z')
  {
    if 'A' <= c <= 'Z' then (c as int + 32) as char else c
  }

  function ToLower(s: string): (r: string)
    ensures |r| == |s|
    ensures forall i | 0 <= i < |r| :: !('A' <= r[i] <= 'Z')
    ensures forall i | 0 <= i < |r| :: r[i] == s[i] || ('A' <= s[i] <= 'Z' && r[i] as int == s[i] as int + 32)
  {
    seq(|s|, i requires 0 <= i < |s| => LowerChar(s[i]))
  }

  predicate IsDigit(c: char) {
    '0' <= c <= '9'
  }

  predicate AllDigits(s: string) {
    forall i | 0 <= i < |s| :: IsDigit(s[i])
  }

  function DigitValue(c: char): nat
    requires IsDigit(c)
  {
    c as int - '0' as int
  }

  /** The value of a string of decimal digits, most significant first. */
  function DigitsValue(ds: string): nat
    requires AllDigits(ds)
  {
    if |ds| == 0 then 0 else DigitsValue(ds[..|ds| - 1]) * 10 + DigitValue(ds[|ds| - 1])
  }

  /** The value of the digits after a decimal point. */
  function FractionValue(ds: string): (r: real)
    requires AllDigits(ds)
    ensures 0.0 <= r < 1.0
  {
    if |ds| == 0 then 0.0 else (DigitValue(ds[0]) as real + FractionValue(ds[1..])) / 10.0
  }

  /** Position of the first `c` in `s`, or `|s|` when there is none. */
  function FindChar(s: string, c: char): (k: nat)
    ensures k <= |s|
    ensures c !in s[..k]
    ensures k < |s| ==> s[k] == c
  {
    if |s| == 0 then 0
    else if s[0] == c then 0
    else
      var k := 1 + FindChar(s[1..], c);
      assert s[..k] == [s[0]] + s[1..][..k - 1];
      k
  }

  /** An unsigned decimal literal: digits, optionally followed by a point and
      more digits, with at least one digit in all. */
  function ParseUnsigned(t: string): Option<real> {
    var k := FindChar(t, '.');
    var whole := t[..k];
    var frac := if k < |t| then t[k + 1..] else "";
    if AllDigits(whole) && AllDigits(frac) && |whole| + |frac| > 0 then
      Some(DigitsValue(whole) as real + FractionValue(frac))
    else
      None
  }

  /** `Number(s)` for decimal text: surrounding white space is ignored, the
      empty string is 0, a leading sign is honoured, and anything that is
      not a decimal literal is `NaN` (`None`). */
  function JsNumber(s: string): (r: Option<real>)
    ensures Trim(s) == "" ==> r == Some(0.0)
  {
    var t := Trim(s);
    if |t| == 0 then Some(0.0)
    else if t[0] == '-' then
      match ParseUnsigned(t[1..])
      case Some(v) => Some(-v)
      case None => None
    else if t[0] == '+' then ParseUnsigned(t[1..])
    else ParseUnsigned(t)
  }

  /** Trimmed text without a sign is read by the unsigned literal alone. */
  lemma {:induction false} JsNumberOfUnsigned(t: string)
    requires |t| > 0 && Trim(t) == t && t[0] != '-' && t[0] != '+'
    ensures JsNumber(t) == ParseUnsigned(t)
  {
  }

  /** A decimal-digits string with no point parses to its digits' value. */
  lemma ParseUnsignedDigits(t: string)
    requires AllDigits(t) && |t| > 0
    ensures ParseUnsigned(t) == Some(DigitsValue(t) as real)
  {
    assert t[..|t|] == t;
  }

  function Pow10(n: nat): (r: nat)
    ensures r > 0
  {
    if n == 0 then 1 else 10 * Pow10(n - 1)
  }

  /** Read from the front, the first digit is worth its place value. */
  lemma {:induction false} DigitsValueFront(ds: string)
    requires AllDigits(ds) && |ds| > 0
    ensures DigitsValue(ds) == DigitValue(ds[0]) * Pow10(|ds| - 1) + DigitsValue(ds[1..])
    decreases |ds|
  {
    if |ds| > 1 {
      var n := |ds|;
      var init := ds[..n - 1];
      var tail := ds[1..];
      DigitsValueFront(init);
      assert init[0] == ds[0];
      assert tail[..n - 2] == init[1..];
      assert tail[n - 2] == ds[n - 1];
      var d := DigitValue(ds[0]);
      var p := Pow10(n - 2);
      var b := DigitsValue(init[1..]);
      var last := DigitValue(ds[n - 1]);
      assert DigitsValue(ds) == DigitsValue(init) * 10 + last;
      assert DigitsValue(init) == d * p + b;
      assert DigitsValue(tail) == b * 10 + last;
      assert Pow10(n - 1) == 10 * p;
      MulTen(d, p);
    } else {
      assert ds[..0] == "";
    }
  }

  lemma MulTen(d: int, p: int)
    ensures (d * p) * 10 == d * (10 * p) == (10 * d) * p
  {
  }

  /** `x` multiplied by ten, `n` times over. */
  function Scale(x: real, n: nat): real
    decreases n
  {
    if n == 0 then x else Scale(10.0 * x, n - 1)
  }

  /** Scaling is multiplying by the `n`-th power of ten. */
  lemma {:induction false} ScaleIsProduct(x: real, n: nat)
    ensures Scale(x, n) == x * Pow10(n) as real
    decreases n
  {
    if n > 0 {
      ScaleIsProduct(10.0 * x, n - 1);
    }
  }

  /** Scaling distributes over a sum. */
  lemma {:induction false} ScaleAdds(x: real, y: real, n: nat)
    ensures Scale(x + y, n) == Scale(x, n) + Scale(y, n)
    decreases n
  {
    if n > 0 {
      ScaleAdds(10.0 * x, 10.0 * y, n - 1);
    }
  }

  /** A whole number scaled is the whole number times the power of ten. */
  lemma {:induction false} ScaleOfNat(m: nat, n: nat)
    ensures Scale(m as real, n) == (m * Pow10(n)) as real
    decreases n
  {
    if n > 0 {
      ScaleOfNat(10 * m, n - 1);
      MulTen(m, Pow10(n - 1));
    }
  }

  /** The digits after the point, moved up past the point, are the digits
      read as a whole number. */
  lemma {:induction false} FractionScaled(f: string)
    requires AllDigits(f)
    ensures Scale(FractionValue(f), |f|) == DigitsValue(f) as real
    decreases |f|
  {
    if |f| > 0 {
      var d := DigitValue(f[0]);
      var b := FractionValue(f[1..]);
      assert 10.0 * FractionValue(f) == d as real + b;
      ScaleAdds(d as real, b, |f| - 1);
      ScaleOfNat(d, |f| - 1);
      FractionScaled(f[1..]);
      DigitsValueFront(f);
    }
  }

  lemma {:induction false} ScaledProduct(x: real, n: nat, v: real)
    requires Scale(x, n) == v
    ensures x * Pow10(n) as real == v
  {
    ScaleIsProduct(x, n);
  }

  /** The digits after the point, times ten to their count, are the digits
      read as a whole number: "85" is worth 85/100. */
  lemma {:induction false} FractionTimesPow(f: string)
    requires AllDigits(f)
    ensures FractionValue(f) * Pow10(|f|) as real == DigitsValue(f) as real
  {
    FractionScaled(f);
    ScaledProduct(FractionValue(f), |f|, DigitsValue(f) as real);
  }

  /** Digits, a point and digits, with at least one digit, parse to the
      whole part plus the fraction. */
  lemma {:induction false} ParseUnsignedDecimal(s: string, k: nat)
    requires k < |s| && |s| > 1 && s[k] == '.'
    requires AllDigits(s[..k]) && AllDigits(s[k + 1..])
    ensures ParseUnsigned(s) == Some(DigitsValue(s[..k]) as real + FractionValue(s[k + 1..]))
  {
    var j := FindChar(s, '.');
  }

  /** A character other than a digit or the point makes the literal `NaN`. */
  lemma {:induction false} ParseUnsignedJunk(t: string, i: nat)
    requires i < |t| && !IsDigit(t[i]) && t[i] != '.'
    ensures ParseUnsigned(t) == None
  {
    var k := FindChar(t, '.');
  }

  /** A second point makes the literal `NaN`. */
  lemma {:induction false} ParseUnsignedTwoPoints(t: string, i: nat, j: nat)
    requires i < j < |t| && t[i] == '.' && t[j] == '.'
    ensures ParseUnsigned(t) == None
  {
    var k := FindChar(t, '.');
    if i >= k {
      assert t[k + 1..][j - k - 1] == t[j];
    }
  }

  /** What follows an optional leading sign. */
  function Unsigned(t: string): (r: string)
    ensures |r| <= |t|
  {
    if |t| > 0 && (t[0] == '-' || t[0] == '+') then t[1..] else t
  }

  /** `Number` is `NaN` exactly when the text past the sign is no literal. */
  lemma {:induction false} JsNumberIsNaN(s: string)
    requires |Trim(s)| > 0
    ensures JsNumber(s) == None <==> ParseUnsigned(Unsigned(Trim(s))) == None
  {
    var t := Trim(s);
    if t[0] == '-' || t[0] == '+' {
      assert Unsigned(t) == t[1..];
    } else {
      assert Unsigned(t) == t;
    }
  }

  /** Past an optional leading sign, a character other than a digit or the
      point leaves no literal. */
  lemma {:induction false} UnsignedJunk(t: string, i: nat)
    requires 0 < i < |t| && !IsDigit(t[i]) && t[i] != '.'
    ensures ParseUnsigned(Unsigned(t)) == None
  {
    if t[0] == '-' || t[0] == '+' {
      assert t[1..][i - 1] == t[i];
      ParseUnsignedJunk(t[1..], i - 1);
    } else {
      ParseUnsignedJunk(t, i);
    }
  }

  /** Two points leave no literal, signed or not. */
  lemma {:induction false} UnsignedTwoPoints(t: string, i: nat, j: nat)
    requires i < j < |t| && t[i] == '.' && t[j] == '.'
    ensures ParseUnsigned(Unsigned(t)) == None
  {
    if t[0] == '-' || t[0] == '+' {
      assert t[1..][i - 1] == t[i] && t[1..][j - 1] == t[j];
      ParseUnsignedTwoPoints(t[1..], i - 1, j - 1);
    } else {
      ParseUnsignedTwoPoints(t, i, j);
    }
  }

  /** A bare sign or a bare point leaves no digit: `NaN`. */
  lemma JsNumberOfBareSymbol(c: char)
    requires c == '-' || c == '+' || c == '.'
    ensures JsNumber([c]) == None
  {
    var t := [c];
    assert ParseUnsigned(Unsigned(t)) == None by {
      assert Unsigned(t) == "" || Unsigned(t) == ".";
      assert FindChar(".", '.') == 0;
    }
    assert Trim(t) == t by {
      assert "" + t + "" == t;
      TrimOfPadded("", t, "");
    }
    JsNumberIsNaN(t);
  }

  /** A character other than a digit or the point after the first makes
      `Number` `NaN`. */
  lemma {:induction false} JsNumberOfJunk(s: string, i: nat)
    requires var t := Trim(s); 0 < i < |t| && !IsDigit(t[i]) && t[i] != '.'
    ensures JsNumber(s) == None
  {
    UnsignedJunk(Trim(s), i);
    JsNumberIsNaN(s);
  }

  /** Two points make `Number` `NaN`. */
  lemma {:induction false} JsNumberOfTwoPoints(s: string, i: nat, j: nat)
    requires var t := Trim(s); i < j < |t| && t[i] == '.' && t[j] == '.'
    ensures JsNumber(s) == None
  {
    UnsignedTwoPoints(Trim(s), i, j);
    JsNumberIsNaN(s);
  }

  function DigitChar(d: nat): (c: char)
    requires d < 10
    ensures IsDigit(c) && DigitValue(c) == d
  {
    ('0' as int + d) as char
  }

  /** `String(n)` for a non-negative integer: its shortest decimal form. */
  function NatToString(n: nat): (r: string)
    ensures |r| > 0 && AllDigits(r)
    ensures DigitsValue(r) == n
    ensures |r| > 1 ==> r[0] != '0'
  {
    if n < 10 then
      [DigitChar(n)]
    else
      var r := NatToString(n / 10) + [DigitChar(n % 10)];
      assert r[..|r| - 1] == NatToString(n / 10);
      r
  }

  /** `xs.join(sep)`. */
  function Join(xs: seq<string>, sep: string): string {
    if |xs| == 0 then ""
    else if |xs| == 1 then xs[0]
    else xs[0] + sep + Join(xs[1..], sep)
  }

  /** `s.split(c)` for a one-character separator: the pieces between the
      separators, in order; the empty string splits into one empty piece. */
  function Split(s: string, c: char): (r: seq<string>)
    ensures |r| > 0
    ensures forall i | 0 <= i < |r| :: c !in r[i]
    ensures Join(r, [c]) == s
  {
    if |s| == 0 then
      [""]
    else
      var rest := Split(s[1..], c);
      if s[0] == c then
        assert Join([""] + rest, [c]) == "" + [c] + Join(rest, [c]) by {
          assert ([""] + rest)[1..] == rest;
        }
        assert s == [c] + s[1..];
        [""] + rest
      else
        var r := [[s[0]] + rest[0]] + rest[1..];
        if |rest| == 1 then
          assert s == [s[0]] + s[1..];
          r
        else
          assert Join(rest, [c]) == rest[0] + [c] + Join(rest[1..], [c]);
          assert r[1..] == rest[1..];
          assert s == [s[0]] + s[1..];
          r
  }

  lemma {:induction false} SplitAfterPlainPrefix(a: string, t: string, c: char)
    requires c !in a
    ensures Split(a + t, c) == [a + Split(t, c)[0]] + Split(t, c)[1..]
    decreases |a|
  {
    if |a| > 0 {
      assert (a + t)[1..] == a[1..] + t;
      assert (a + t)[0] == a[0];
      SplitAfterPlainPrefix(a[1..], t, c);
      assert [a[0]] + (a[1..] + Split(t, c)[0]) == a + Split(t, c)[0];
    } else {
      var r := Split(t, c);
      assert a + t == t && a + r[0] == r[0];
      assert [r[0]] + r[1..] == r;
    }
  }

  /** Splitting a joined list on a separator that occurs in none of its
      elements gives the list back. */
  lemma {:induction false} SplitJoin(xs: seq<string>, c: char)
    requires |xs| > 0
    requires forall i | 0 <= i < |xs| :: c !in xs[i]
    ensures Split(Join(xs, [c]), c) == xs
    decreases |xs|
  {
    if |xs| == 1 {
      assert xs[0] + "" == xs[0];
      SplitAfterPlainPrefix(xs[0], "", c);
    } else {
      var j := Join(xs[1..], [c]);
      assert Join(xs, [c]) == xs[0] + ([c] + j);
      SplitAfterPlainPrefix(xs[0], [c] + j, c);
      assert ([c] + j)[1..] == j;
      SplitJoin(xs[1..], c);
      assert Split([c] + j, c) == [""] + xs[1..];
      assert xs[0] + "" == xs[0];
    }
  }
}
